=== FILE: README.md ===
# matbuddy14 in Dafny

A functional model of the logic inside matbuddy14, a small recipe app. The model has three parts:

- **The recipe search page** (`Recipes.tsx`). The page folds a TheMealDB meal record's numbered `strIngredientN` / `strMeasureN` slots into one ordered `ingredients` list. It splits the comma-separated `strTags` into tags. It keeps a favourites list in memory and persists the whole list under the `matbuddy:favorites` key of browser storage. `toggleFavorite` adds or removes a meal and asks for a redirect to `/favorites` when it adds one.
- **The favourites page** (`Favorites.tsx`). It reads the same key when it mounts, and `removeFavorite` writes the filtered list back.
- **The backend** (`worker.tsx` over the tables of `schema.ts`). Each JSON route is a pure transition from a database state and a request to a status, a JSON payload and a new database state. The routes are login lookup-or-create, list/create recipes, and list/add/remove favourites. The database state is three tables plus each table's AUTOINCREMENT counter. The invariants the schema declares are stated once, in `Schema.Valid`:
  - ascending ids below the counter
  - one user per email
  - one favourite row per (user, recipe) pair
  - existing owners, users and recipes when foreign keys are enforced

  Every route preserves `Schema.Valid`.

## Modules

| file | module | contents |
|---|---|---|
| `options.dfy` | `Options` | `Option` and `Result` |
| `seqs.dfy` | `Seqs` | `Array.prototype.filter` as `Filter`, and `Pairwise` relations over sequences |
| `text.dfy` | `Text` | `trim`, `split`/`join` on one character, and decimal rendering of integers |
| `js.dfy` | `Js` | JavaScript values of a request body, truthiness, `== null`, `Number(...)` |
| `recipes.dfy` | `Recipes` | the meal record, the normaliser, the tag splitter, toggle, load and save |
| `favorites.dfy` | `Favorites` | the favourites page: mount and `removeFavorite` |
| `schema.dfy` | `Schema` | the rows, the database state and its invariants, and the statements the routes run |
| `worker.dfy` | `Worker` | the route handlers and the router |

Modelling decisions:

- **Browser storage** is a map from key to `Recipes.Stored`, which is one of three things:
  - the serialised list
  - the empty string
  - text that does not parse

  A write that storage refuses is a `writable: bool` parameter.
- **Database failures.** A thrown database call is a `failAt: Option<nat>` parameter. It names the call, counted from 0 within one request, that throws. The handler's `catch` then answers with its generic 500.
- **The navigation** to `/favorites` is returned as a flag.
- **Value binding.** A JavaScript number bound to a TEXT column is stored as its decimal text. A `Number(...)` result of `NaN` binds as NULL, so it fails a NOT NULL column.
- **Foreign keys.** Whether they are enforced is a flag of the database state.
- **Tags.** An absent `strTags` and an empty one both give no tags, as the page renders them; the model follows that code and does not tell the two apart.

## Model

| member | source | states |
|---|---|---|
| Recipes.SlotsBelow | matbuddy14/src/app/pages/Recipes.tsx:120-128 | the slots below a bound that name an ingredient (defined, non-empty, non-blank after trim): each listed once, in ascending order, and every such slot is listed |
| Recipes.KeptSlotsSpec | matbuddy14/src/app/pages/Recipes.tsx:120-134 | the kept slots are exactly the slots 1..14 whose ingredient is non-blank, in ascending order |
| Recipes.KeptSlotsUnique | matbuddy14/src/app/pages/Recipes.tsx:120-134 | the kept-slot list is determined by that description: any ascending list of slots holding exactly those slots equals it |
| Recipes.AscendingUnique | matbuddy14/src/app/pages/Recipes.tsx:120-134 | two ascending slot lists with the same elements are equal |
| Recipes.IngredientsSpec | matbuddy14/src/app/pages/Recipes.tsx:128-132 | one pair per kept slot, in slot order; the ingredient is untrimmed, the measure is the trimmed measure (or "") and has no surrounding whitespace |
| Recipes.IngredientCount | matbuddy14/src/app/pages/Recipes.tsx:120-134 | the list is as long as the number of slots 1..14 that name an ingredient, so at most 14 |
| Recipes.CollectIngredients | matbuddy14/src/app/pages/Recipes.tsx:118-134 | the slot loop as written (push per non-blank slot, slots 1 to 14) computes exactly the specified ingredient list |
| Recipes.NormaliseExample | matbuddy14/src/app/pages/Recipes.tsx:120-134 | "Salt"/" 1 tsp", an empty slot, a blank slot and "Egg" without a measure give [("Salt", "1 tsp"), ("Egg", "")] |
| Recipes.Normalise | matbuddy14/src/app/pages/Recipes.tsx:136-139 | every field but `ingredients` is copied unchanged; `ingredients` is the normalised list |
| Recipes.SearchResults | matbuddy14/src/app/pages/Recipes.tsx:110-145 | a failed request or `meals: null` yields no meals; otherwise exactly one normalised meal per returned meal, in order |
| Recipes.Tags | matbuddy14/src/app/pages/Recipes.tsx:249-254 | an absent or empty `strTags` gives no tags; every tag is non-empty, has no surrounding whitespace and no comma (which tags, in which order, is fixed by the three rows below) |
| Recipes.TagsOfText | matbuddy14/src/app/pages/Recipes.tsx:249-254 | the truthiness guard changes nothing: the tags of any string, `""` included, are its trimmed, non-empty comma pieces |
| Recipes.TagsOfComma | matbuddy14/src/app/pages/Recipes.tsx:251-254 | the tags of `a + "," + b` are the tags of `a` followed by the tags of `b` |
| Recipes.TagsOfPiece | matbuddy14/src/app/pages/Recipes.tsx:251-254 | a comma-free piece gives no tag when it is blank and otherwise exactly its trimmed text; with the previous row this fixes the tags of every string |
| Recipes.TagsOfJoin | matbuddy14/src/app/pages/Recipes.tsx:251-254 | joining trimmed, non-empty, comma-free tags with "," and splitting them again gives back the tags in order |
| Recipes.TagsExample | matbuddy14/src/app/pages/Recipes.tsx:249-254 | "Soup, Quick,  " gives the tags ["Soup", "Quick"] |
| Recipes.WithoutId | matbuddy14/src/app/pages/Recipes.tsx:85 | the result holds no entry with the id, and every entry of the list with another id |
| Recipes.WithoutIdConcat | matbuddy14/src/app/pages/Recipes.tsx:85 | removal by id distributes over concatenation and keeps a single entry exactly when its id differs, so the others keep their order and multiplicity |
| Recipes.IsFavorite | matbuddy14/src/app/pages/Recipes.tsx:95-96 | a meal is a favourite exactly when removing its id from the list drops an entry |
| Recipes.ReadFavorites | matbuddy14/src/app/pages/Recipes.tsx:61-64 | a list is read exactly when the key holds parsable, non-empty text, and it is the stored list |
| Recipes.LoadFavorites | matbuddy14/src/app/pages/Recipes.tsx:59-68 | the stored list replaces the in-memory one; a missing key, empty text or a parse error leave the page unchanged |
| Recipes.SaveFavorites | matbuddy14/src/app/pages/Recipes.tsx:70-77 | the in-memory list is set whether or not the write succeeds; a successful write makes the key read back as the list; a refused write leaves storage as it was; no other key is changed, dropped or added |
| Recipes.ToggleFavorite | matbuddy14/src/app/pages/Recipes.tsx:79-96 | redirects iff the meal was not a favourite; appends it at the end in that case, and otherwise removes every entry with its id; saves the new list; `isFavorite` flips |
| Recipes.ToggleTwice | matbuddy14/src/app/pages/Recipes.tsx:79-91 | toggling a new meal twice restores the original list, redirecting only the first time |
| Favorites.Mount | matbuddy14/src/app/pages/Favorites.tsx:9-20 | the page starts empty and takes the stored list only when the key holds parsable, non-empty text |
| Favorites.RemoveFavorite | matbuddy14/src/app/pages/Favorites.tsx:22-26 | drops every entry with the id and keeps every other; a successful write makes the key read back as the new list; a refused write throws after the list was set; the resulting client is exactly what saving the new list gives, so no other storage key changes |
| Favorites.RemoveAbsent | matbuddy14/src/app/pages/Favorites.tsx:23 | removing an id no entry carries leaves the list unchanged |
| Favorites.RemoveIdempotent | matbuddy14/src/app/pages/Favorites.tsx:22-25 | removing the same id twice is removing it once |
| Favorites.RemoveKeepsOrder | matbuddy14/src/app/pages/Favorites.tsx:23 | removal distributes over concatenation, so survivors keep their order |
| Favorites.RemoveMatchesToggle | matbuddy14/src/app/pages/Favorites.tsx:22-25 | for a favourite meal, removing its id gives the same page state as toggling it on the search page |
| Favorites.ToggleThenMount | matbuddy14/src/app/pages/Favorites.tsx:6-16 | after a toggle whose write succeeded, mounting the favourites page shows the toggled list (both use one key) |
| Favorites.RemoveThenMount | matbuddy14/src/app/pages/Favorites.tsx:11-25 | after a successful removal, mounting again shows the list left in memory |
| Text.TrimSpec | matbuddy14/src/app/pages/Recipes.tsx:128-131 | a trimmed string has no whitespace at either end, is empty exactly for blank input, and leaves trimmed strings alone |
| Text.Split | matbuddy14/src/app/pages/Recipes.tsx:251-252 | at least one piece, no piece contains the separator, and joining the pieces gives the input back |
| Text.SplitJoin | matbuddy14/src/app/pages/Recipes.tsx:251-252 | splitting undoes joining for separator-free pieces |
| Text.SplitConcat | matbuddy14/src/app/pages/Recipes.tsx:251-252 | splitting `a + sep + b` gives the pieces of `a` followed by the pieces of `b` |
| Js.StringToNumber | matbuddy14/src/worker.tsx:129 | after trimming: a blank string is 0; digits (leading zeros allowed) are their decimal value; `+` or `-` followed by digits is that value signed; NaN exactly for everything else |
| Js.LeadingZero | matbuddy14/src/worker.tsx:129 | a leading zero does not change the number a digit string reads as (`"007"` is 7) |
| Js.ToNumber | matbuddy14/src/worker.tsx:108 | the case table of `Number(v)`: `undefined` is NaN, `null` is 0, a number is itself, a blank string is 0, and any string converts as `Js.StringToNumber` |
| Js.DecimalTextNumber | matbuddy14/src/worker.tsx:129 | reading back the decimal text of an integer gives that integer |
| Schema.EmptyDb | matbuddy14/src/db/schema.ts:4-40 | a fresh database meets every schema invariant |
| Schema.AppendUserValid | matbuddy14/src/db/schema.ts:5-7 | a user under the next id with an unused email keeps the invariants |
| Schema.AppendRecipeValid | matbuddy14/src/db/schema.ts:12-19 | a recipe under the next id whose owner exists (when enforced) keeps the invariants |
| Schema.AppendFavoriteValid | matbuddy14/src/db/schema.ts:26-38 | a favourite under the next id with an unused pair and existing user and recipe (when enforced) keeps the invariants |
| Schema.InsertUser | matbuddy14/src/db/schema.ts:4-8 | fails iff name or email is NULL or the email is taken; otherwise appends one user whose id is one above the counter and above every existing id; nothing else changes; invariants kept |
| Schema.InsertRecipe | matbuddy14/src/db/schema.ts:11-20 | fails iff title, ingredients or owner is NULL, or the owner is unknown under enforced foreign keys; description and image may be NULL; otherwise appends one recipe under a fresh, larger id; invariants kept |
| Schema.InsertFavorite | matbuddy14/src/db/schema.ts:23-40 | fails iff an id is NULL, the pair is already present, or under enforced foreign keys the user or recipe is unknown; otherwise appends one row under a fresh, larger id; invariants kept |
| Schema.DeleteFavorites | matbuddy14/src/worker.tsx:199-206 | removes exactly the rows matching the pair (a NULL binding matches none), keeps every other row, touches nothing else; invariants kept |
| Schema.UsersWithEmail | matbuddy14/src/worker.tsx:49 | only users with that email, and none exactly when no user has it |
| Schema.FavoritesOfUser | matbuddy14/src/worker.tsx:135-138 | exactly the favourite rows of that user; on a valid database each appears once (no order is promised, as the query has no `ORDER BY`) |
| Schema.HighestId | matbuddy14/src/worker.tsx:111-115 | a row of the table whose id is at least every other id |
| Schema.LatestRecipe | matbuddy14/src/worker.tsx:111-115 | at most one row, none only for an empty table, and it has the highest id |
| Schema.LatestIsInserted | matbuddy14/src/worker.tsx:103-117 | on a valid database, the highest-id row right after an insert is the inserted row |
| Schema.EmailLookupUnique | matbuddy14/src/db/schema.ts:7 | with unique emails, looking up a user's email finds exactly that user |
| Schema.PairRowsSingle | matbuddy14/src/db/schema.ts:35-38 | with the unique index, a present pair is carried by exactly one row |
| Worker.FoundAfterInsert | matbuddy14/src/worker.tsx:53-55 | after inserting a user with a fresh email, the re-select finds that user first |
| Worker.Login | matbuddy14/src/worker.tsx:34-64 | 400 iff the body has no non-empty string email, with nothing changed; for an existing email a 200 with that user and nothing changed; for a new email exactly one user appended, named by the name field or "User" when it is falsy, and returned; a 500 "Login failed" exactly when a call it makes throws (the select, or for a new email the insert or the re-select); only the users table changes; invariants kept |
| Worker.ListRecipes | matbuddy14/src/worker.tsx:67-75 | all recipe rows unfiltered, or the generic 500; the database is untouched |
| Worker.CreateRecipe | matbuddy14/src/worker.tsx:77-122 | 400 iff not an object or title/ingredients falsy or createdBy nullish, with nothing changed; 201 iff validated, no call threw, `Number(createdBy)` is a number and (under enforced keys) a user; then one row with description `?? ""` and image `?? null` and, on a valid database, that row returned; invariants kept |
| Worker.NameOrDefault | matbuddy14/src/worker.tsx:53 | the case table of the name fallback to "User" as stored: a falsy name is "User", a non-empty string is itself, a non-zero number is its decimal text |
| Worker.ListFavorites | matbuddy14/src/worker.tsx:126-145 | 400 iff `Number(userId)` is 0 or NaN (a missing parameter included); 500 iff the id is valid and the select throws; 200 with exactly that user's rows, each once on a valid database; never changes the database |
| Worker.AddFavorite | matbuddy14/src/worker.tsx:147-177 | 400 iff not an object or an id is falsy; a present pair is a 500; 201 iff validated, no throw, both ids numeric, pair new and (under enforced keys) both exist, and then exactly one row appended; every non-201 leaves the database as it was |
| Worker.RemoveFavorite | matbuddy14/src/worker.tsx:179-213 | 400 iff not an object or an id is falsy; 500 iff the delete throws; otherwise 200, even when nothing matched, with exactly the matching rows removed and all else untouched |
| Worker.Handle | matbuddy14/src/worker.tsx:32-214 | every route keeps the schema invariants and answers 200, 201, 400 or 500; the GET routes never change the database, nor does any 400; a non-object body is always the same 400 |
| Worker.LoginTwice | matbuddy14/src/worker.tsx:49-58 | repeating a successful login with the same email, under any name, returns the identical row and changes nothing |
| Worker.LoginIgnoresName | matbuddy14/src/worker.tsx:49-58 | for an existing email the answer does not depend on the name and carries the unique user with that email |
| Worker.ZeroIdentifiers | matbuddy14/src/worker.tsx:99-192 | `createdBy: 0` passes the recipe check, while `userId: 0` is refused by both favourite routes |
| Worker.CreatedByZeroFails | matbuddy14/src/worker.tsx:99-120 | under enforced foreign keys a `createdBy: 0` that passed validation ends in a 500 with nothing changed |
| Worker.AddTwice | matbuddy14/src/worker.tsx:160-176 | adding the same favourite again fails on the unique pair: a 500 with the table unchanged |
| Worker.RemoveUndoesAdd | matbuddy14/src/worker.tsx:167-208 | deleting the favourite just added restores the favourites table |
| Worker.ListFavoritesById | matbuddy14/src/worker.tsx:129-140 | `userId=<n>` for a non-zero n lists exactly user n's rows |

## Left out

- React rendering, state hooks, `useEffect` scheduling, the loading flag and the markup of both pages. These are presentation only. The page state is the `Client` record.
- The TheMealDB `fetch`, `encodeURIComponent` and `res.json()`. These are network I/O. The outcome of a search is the input `SearchResponse`.
- `window.location.href` navigation. It is a browser effect and is returned as the `redirect` flag.
- `console.error` logging. It has no effect on state.
- `JSON.stringify`/`JSON.parse` of the favourites list. These are an abstract round trip. Stored text that parses to something other than a meal list (`"null"`, an object) is not modelled.
- Drizzle ORM and the rwsdk router (`defineApp`, `route`, `render`, `setCommonHeaders`). These are foreign libraries. Only the effects of their select, insert and delete statements on the tables are modelled.
- Response headers and the JSON encoding of payloads. They are framework output. A response is a status and a payload value.
- The rendered pages `/`, `/login` and `/home`, and `client.tsx`. These are DOM bootstrap with no state logic.
- Concurrency: the stale-search race and the non-atomic insert-then-select in the recipe POST. Routes are sequential, atomic transitions.
- Text.Trim: removes ASCII whitespace only. JavaScript's `trim` also removes the Unicode space separators, the no-break space U+00A0, the byte-order mark U+FEFF and the line terminators U+2028 and U+2029, which are not worth modelling here.
- Js.StringToNumber: decimal integer literals only. Fractions, exponents, hexadecimal, `Infinity` and the Unicode whitespace JavaScript skips read as NaN in the model.
- Numbers are unbounded integers, not IEEE-754 doubles or SQLite's 64-bit INTEGER. Three consequences: `Number("9007199254740993")` reads exactly, where JavaScript rounds it to 9007199254740992; `DecimalText` never switches to the exponent notation `String(n)` uses from 1e21 on; and the AUTOINCREMENT counters never reach SQLite's limit of 2^63-1, where an insert fails.
- Schema.FavoritesOfUser: the rows come back in id order, but the promise is only that each of the user's rows appears once. `SELECT … WHERE user_id = ?` has no `ORDER BY`, so the engine chooses the order; it may, for instance, answer from the unique (user, recipe) index in recipe order.
- Request body field values that are booleans, objects, arrays or fractional numbers. Only absent, `null`, integer and string values are modelled. An array body reads like an object without the named fields.
- The 255-character length on `users.name` and `users.email`. SQLite does not enforce it.
- Meals with more than 14 slots. The extra slots TheMealDB sends are ignored, as the loop reads slots 1 to 14 only.

=== FILE: favorites.dfy ===
/** The favourites page: it reads the list the search page saved and lets the user remove
    entries, writing the whole list back under the same key. */
module Favorites {
  import opened Options
  import opened Seqs
  import opened Recipes

  /** The list the page shows after mounting: it starts empty and takes the stored list
      when one is readable; a missing key, empty text or text that fails to parse (the
      error is caught) leave it empty. */
  function Mount(storage: map<string, Stored>): (r: Client)
    ensures r.storage == storage
    ensures ReadFavorites(storage).None? ==> r.favorites == []
    ensures ReadFavorites(storage).Some? ==> r.favorites == storage[FavKey].meals
  {
    LoadFavorites(Client([], storage))
  }

  /** The page after `removeFavorite`, and whether the unguarded storage write threw. */
  datatype Removed = Removed(client: Client, threw: bool)

  /** `removeFavorite(idMeal)`: drops every entry with that id, keeps the others in order,
      sets the in-memory list, then writes it under the key. The write is not wrapped in
      try/catch: when storage refuses it the error escapes, after the list was set. */
  function RemoveFavorite(c: Client, idMeal: string, writable: bool): (r: Removed)
    ensures forall k :: 0 <= k < |r.client.favorites| ==>
      r.client.favorites[k].idMeal != idMeal && r.client.favorites[k] in c.favorites
    ensures forall k :: 0 <= k < |c.favorites| && c.favorites[k].idMeal != idMeal ==>
      c.favorites[k] in r.client.favorites
    ensures r.threw <==> !writable
    ensures writable ==> ReadFavorites(r.client.storage) == Some(r.client.favorites)
    ensures !writable ==> r.client.storage == c.storage
    ensures r.client == SaveFavorites(c, r.client.favorites, writable)
  {
    var updated := WithoutId(c.favorites, idMeal);
    Removed(SaveFavorites(c, updated, writable), !writable)
  }

  /** Removing an id that no entry carries changes nothing in memory. */
  lemma RemoveAbsent(c: Client, idMeal: string, writable: bool)
    requires forall k :: 0 <= k < |c.favorites| ==> c.favorites[k].idMeal != idMeal
    ensures RemoveFavorite(c, idMeal, writable).client.favorites == c.favorites
  {
    FilterKeepsAll(c.favorites, OtherThan(idMeal));
  }

  /** Removing the same id twice is removing it once. */
  lemma RemoveIdempotent(c: Client, idMeal: string, w1: bool, w2: bool)
    ensures var once := RemoveFavorite(c, idMeal, w1).client;
            RemoveFavorite(once, idMeal, w2).client.favorites == once.favorites
  {
    var once := RemoveFavorite(c, idMeal, w1).client;
    RemoveAbsent(once, idMeal, w2);
  }

  /** Removal keeps the surviving entries in their order: removing from a concatenation
      removes from each part. */
  lemma RemoveKeepsOrder(a: seq<Meal>, b: seq<Meal>, storage: map<string, Stored>, idMeal: string, writable: bool)
    ensures RemoveFavorite(Client(a + b, storage), idMeal, writable).client.favorites ==
            RemoveFavorite(Client(a, storage), idMeal, writable).client.favorites +
            RemoveFavorite(Client(b, storage), idMeal, writable).client.favorites
  {
    WithoutIdConcat(a, b, idMeal);
  }

  /** The page's remove button computes the same list as the search page's toggle when the
      meal is a favourite. */
  lemma RemoveMatchesToggle(c: Client, meal: Meal, writable: bool)
    requires IsFavorite(c.favorites, meal)
    ensures RemoveFavorite(c, meal.idMeal, writable).client ==
            ToggleFavorite(c, meal, writable).client
  {
  }

  /** After a toggle whose write succeeded, mounting the favourites page shows exactly the
      list the search page holds: both pages use the same key. */
  lemma ToggleThenMount(c: Client, meal: Meal)
    ensures var t := ToggleFavorite(c, meal, true);
            Mount(t.client.storage).favorites == t.client.favorites
  {
  }

  /** After a successful removal, mounting the page again shows the list left in memory. */
  lemma RemoveThenMount(c: Client, idMeal: string)
    ensures var r := RemoveFavorite(c, idMeal, true);
            Mount(r.client.storage).favorites == r.client.favorites
  {
  }
}

=== FILE: js.dfy ===
/** The slice of JavaScript value semantics the route handlers depend on: truthiness,
    `== null`, the `Number(...)` conversion and the shape of a parsed request body. */
module Js {
  import opened Text

  /** A field of a parsed JSON body: absent (`undefined`), `null`, a number or a string.
      Numbers are integer-valued and unbounded: neither the 53-bit precision of a double
      nor the exponent notation `String(n)` uses from 1e21 on is modelled. */
  datatype JsValue = Undefined | Null | Num(n: int) | Str(s: string)

  /** JavaScript truthiness (`!!v`): `undefined`, `null`, `0` and `""` are falsy. */
  predicate Truthy(v: JsValue) {
    match v
    case Undefined => false
    case Null => false
    case Num(n) => n != 0
    case Str(s) => s != ""
  }

  /** `v == null`, which holds for `null` and `undefined` alone. */
  predicate Nullish(v: JsValue) {
    v.Undefined? || v.Null?
  }

  /** The result of `Number(...)`: an integer or `NaN`. */
  datatype JsNumber = NaN | Int(value: int)

  /** `!Number(x)` is false exactly for the non-zero numbers. */
  predicate NumberTruthy(x: JsNumber) {
    x.Int? && x.value != 0
  }

  /** A sign followed by at least one digit. */
  predicate SignedDigits(t: string) {
    |t| > 1 && (t[0] == '-' || t[0] == '+') && AllDigits(t[1..])
  }

  /** JavaScript's string-to-number conversion restricted to decimal integer literals:
      surrounding whitespace is ignored, a blank string is `0`, digits (leading zeros
      included) are their value, a sign followed by digits is that value signed, and
      anything else is `NaN`. */
  function StringToNumber(s: string): (r: JsNumber)
    ensures IsBlank(s) ==> r == Int(0)
    ensures AllDigits(Trim(s)) ==> r.Int? && r.value >= 0
    ensures !IsBlank(s) && AllDigits(Trim(s)) ==> r == Int(DigitsValue(Trim(s)))
    ensures SignedDigits(Trim(s)) && Trim(s)[0] == '+' ==> r == Int(DigitsValue(Trim(s)[1..]))
    ensures SignedDigits(Trim(s)) && Trim(s)[0] == '-' ==> r == Int(-(DigitsValue(Trim(s)[1..]) as int))
    ensures r.NaN? <==> !IsBlank(s) && !AllDigits(Trim(s)) && !SignedDigits(Trim(s))
    ensures r.Int? && r.value < 0 ==> Trim(s)[0] == '-'
  {
    TrimSpec(s);
    var t := Trim(s);
    if t == "" then Int(0)
    else if SignedDigits(t) then
      var m: int := DigitsValue(t[1..]);
      Int(if t[0] == '-' then -m else m)
    else if AllDigits(t) then Int(DigitsValue(t))
    else NaN
  }

  /** Reading back the decimal text of an integer gives that integer. */
  lemma DecimalTextNumber(i: int)
    ensures StringToNumber(DecimalText(i)) == Int(i)
  {
    var r := DecimalText(i);
    TrimSpec(r);
    if i < 0 {
      NatTextValue(-i);
      assert r[1..] == NatText(-i);
    } else {
      NatTextValue(i);
      assert !(r[0] == '-' || r[0] == '+');
    }
  }

  /** Leading zeros are ignored: `Number("007")` is 7. */
  lemma LeadingZero(ds: string)
    requires |ds| >= 1 && AllDigits(ds)
    ensures StringToNumber("0" + ds) == StringToNumber(ds)
  {
    DigitsLeadingZero(ds);
    TrimSpec(ds);
    TrimSpec("0" + ds);
  }

  /** `Number(v)`. */
  function ToNumber(v: JsValue): (r: JsNumber)
    ensures v.Undefined? ==> r.NaN?
    ensures v.Null? ==> r == Int(0)
    ensures v.Num? ==> r == Int(v.n)
    ensures v.Str? && IsBlank(v.s) ==> r == Int(0)
    ensures v.Str? ==> r == StringToNumber(v.s)
  {
    match v
    case Undefined => NaN
    case Null => Int(0)
    case Num(n) => Int(n)
    case Str(s) => StringToNumber(s)
  }

  /** A request body after `request.json().catch(() => null)`: unparsable text, a JSON
      value that is not an object (`null`, a boolean, a number or a string), or an object
      with its fields. A JSON array reads like an object without the named fields. */
  datatype Body = Unparsable | NotObject | Object(fields: map<string, JsValue>)

  /** `!body || typeof body !== "object"`: the guard every POST/DELETE handler starts with. */
  predicate Rejected(body: Body) {
    !body.Object?
  }

  /** Property access `body[key]` on an object body: a missing property is `undefined`. */
  function Field(body: Body, key: string): (v: JsValue)
    requires body.Object?
    ensures key !in body.fields ==> v.Undefined?
  {
    if key in body.fields then body.fields[key] else Undefined
  }
}

=== FILE: options.dfy ===
/** Optional values and success/failure results shared by the client and server models. */
module Options {

  /** A value that may be missing: JavaScript's `null`/`undefined` collapse to `None`. */
  datatype Option<+T> = None | Some(value: T) {

    /** The wrapped value, or `default` when there is none (JavaScript's `x ?? default`). */
    function GetOr(default: T): T {
      match this
      case Some(v) => v
      case None => default
    }
  }

  /** The outcome of a statement that can fail, carrying either a value or an error. */
  datatype Result<+R, +E> = Success(value: R) | Failure(error: E)
}

=== FILE: recipes.dfy ===
/** The recipe search page: the meal record, the normaliser that folds the numbered
    ingredient/measure slots into one ordered list, the tag splitter, and the
    favourites list kept in memory and persisted whole under one storage key. */
module Recipes {
  import opened Options
  import opened Seqs
  import opened Text

  /** Key under which both pages keep the serialised favourites list. */
  const FavKey := "matbuddy:favorites"

  /** Number of ingredient/measure slots the normaliser reads. */
  const SlotCount := 14

  /** One line of a recipe's ingredient list. */
  datatype Ingredient = Ingredient(ingredient: string, measure: string)

  /** A meal as delivered by the search service and as kept in the favourites list.
      `strIngredients[k]` and `strMeasures[k]` hold slot `k + 1` (`strIngredient1`, ...);
      a slot that is `null` or absent is `None`, and the service may send more slots than
      the normaliser reads. `ingredients` is absent on a raw record and filled in by
      `Normalise`. */
  datatype Meal = Meal(
    idMeal: string,
    strMeal: string,
    strCategory: string,
    strArea: string,
    strInstructions: string,
    strMealThumb: string,
    strTags: Option<string>,
    strYoutube: string,
    strIngredients: seq<Option<string>>,
    strMeasures: seq<Option<string>>,
    ingredients: Option<seq<Ingredient>>)

  /** `meal["strIngredient" + i]`, for slot numbers counted from 1. */
  function IngredientSlot(m: Meal, i: nat): Option<string>
    requires 1 <= i
  {
    if i <= |m.strIngredients| then m.strIngredients[i - 1] else None
  }

  /** `meal["strMeasure" + i]`, for slot numbers counted from 1. */
  function MeasureSlot(m: Meal, i: nat): Option<string>
    requires 1 <= i
  {
    if i <= |m.strMeasures| then m.strMeasures[i - 1] else None
  }

  /** `ing && ing.trim() !== ""`: the slot value names an ingredient. */
  predicate NamesIngredient(ing: Option<string>) {
    ing.Some? && ing.value != "" && Trim(ing.value) != ""
  }

  /** Slot `i` names an ingredient. */
  predicate Kept(m: Meal, i: nat)
    requires 1 <= i
  {
    NamesIngredient(IngredientSlot(m, i))
  }

  /** The pair emitted for a kept slot: the ingredient exactly as given and the measure
      trimmed, an absent measure counting as "". */
  function PairAt(m: Meal, i: nat): (p: Ingredient)
    requires 1 <= i
    ensures Kept(m, i) ==> p.ingredient == IngredientSlot(m, i).value
    ensures MeasureSlot(m, i).None? ==> p.measure == ""
  {
    Ingredient(IngredientSlot(m, i).GetOr(""), Trim(MeasureSlot(m, i).GetOr("")))
  }

  predicate Ascending(s: seq<nat>) {
    forall a, b :: 0 <= a < b < |s| ==> s[a] < s[b]
  }

  /** The slots below `n` that name an ingredient, each once, in ascending order. */
  function SlotsBelow(m: Meal, n: nat): (s: seq<nat>)
    requires 1 <= n
    ensures |s| <= n - 1
    ensures forall k :: 0 <= k < |s| ==> 1 <= s[k] < n && Kept(m, s[k])
    ensures forall i :: 1 <= i < n && Kept(m, i) ==> i in s
    ensures Ascending(s)
    decreases n
  {
    if n == 1 then []
    else
      var below := SlotsBelow(m, n - 1);
      if Kept(m, n - 1) then below + [n - 1] else below
  }

  /** The slot numbers the normaliser keeps. */
  function KeptSlots(m: Meal): (s: seq<nat>)
    ensures |s| <= SlotCount
  {
    SlotsBelow(m, SlotCount + 1)
  }

  /** The kept slots are exactly the slots 1 to `SlotCount` that name an ingredient,
      each once, in ascending order. */
  lemma KeptSlotsSpec(m: Meal)
    ensures forall k :: 0 <= k < |KeptSlots(m)| ==>
      1 <= KeptSlots(m)[k] <= SlotCount && Kept(m, KeptSlots(m)[k])
    ensures forall i :: 1 <= i <= SlotCount ==> (Kept(m, i) <==> i in KeptSlots(m))
    ensures Ascending(KeptSlots(m))
  {
    var s := KeptSlots(m);
    forall i | 1 <= i <= SlotCount && i in s
      ensures Kept(m, i)
    {
      var k :| 0 <= k < |s| && s[k] == i;
    }
  }

  /** The normalised ingredient list of a meal: one pair per kept slot, in slot order. */
  function IngredientsOf(m: Meal): (r: seq<Ingredient>)
    ensures |r| == |KeptSlots(m)| <= SlotCount
  {
    var slots := KeptSlots(m);
    seq(|slots|, k requires 0 <= k < |slots| => PairAt(m, slots[k]))
  }

  /** The normalised list holds one pair per kept slot, in ascending slot order; each pair
      keeps the ingredient exactly as given and the measure trimmed, with an absent or
      null measure read as "". */
  lemma IngredientsSpec(m: Meal)
    ensures var r := IngredientsOf(m);
            var slots := KeptSlots(m);
            && |r| == |slots|
            && (forall k :: 0 <= k < |r| ==>
                  && r[k].ingredient == IngredientSlot(m, slots[k]).value
                  && r[k].measure == Trim(MeasureSlot(m, slots[k]).GetOr(""))
                  && IsTrimmed(r[k].measure))
  {
    KeptSlotsSpec(m);
    var r := IngredientsOf(m);
    forall k | 0 <= k < |r|
      ensures IsTrimmed(r[k].measure)
    {
      TrimSpec(MeasureSlot(m, KeptSlots(m)[k]).GetOr(""));
    }
  }

  /** The list is as long as the number of slots that name an ingredient. */
  lemma IngredientCount(m: Meal)
    ensures |IngredientsOf(m)| == |set i | 1 <= i <= SlotCount && Kept(m, i)|
  {
    KeptSlotsSpec(m);
    var slots := KeptSlots(m);
    assert (set i | 1 <= i <= SlotCount && Kept(m, i)) == Elements(slots);
    AscendingCard(slots);
  }

  function Elements(s: seq<nat>): set<nat> {
    set x | x in s
  }

  /** An ascending sequence has as many distinct elements as it has entries. */
  lemma {:induction false} AscendingCard(s: seq<nat>)
    requires Ascending(s)
    ensures |Elements(s)| == |s|
    decreases |s|
  {
    if |s| > 0 {
      var t := s[1..];
      forall a, b | 0 <= a < b < |t|
        ensures t[a] < t[b]
      {
        assert t[a] == s[a + 1] && t[b] == s[b + 1];
      }
      AscendingCard(t);
      assert s[0] !in t;
      var whole := Elements(s);
      var rest := Elements(t);
      assert s == [s[0]] + t;
      assert whole == rest + {s[0]};
      assert s[0] !in rest;
      assert |whole| == |rest| + 1;
    }
  }

  /** The tail of a non-empty ascending sequence is ascending and holds every element but
      the first. */
  lemma AscendingTail(a: seq<nat>)
    requires Ascending(a) && |a| > 0
    ensures Ascending(a[1..])
    ensures forall x :: x in a[1..] <==> x in a && x != a[0]
  {
    forall x | x in a && x != a[0] ensures x in a[1..] {
      var k :| 0 <= k < |a| && a[k] == x;
      assert a[1..][k - 1] == x;
    }
  }

  /** Two ascending sequences with the same elements are equal. */
  lemma {:induction false} AscendingUnique(a: seq<nat>, b: seq<nat>)
    requires Ascending(a) && Ascending(b)
    requires forall x :: x in a <==> x in b
    ensures a == b
    decreases |a|
  {
    assert |a| > 0 ==> a[0] in b;
    assert |b| > 0 ==> b[0] in a;
    if |a| > 0 {
      assert a[0] == b[0];
      AscendingTail(a);
      AscendingTail(b);
      AscendingUnique(a[1..], b[1..]);
      assert a == [a[0]] + a[1..];
      assert b == [b[0]] + b[1..];
    }
  }

  /** The kept slots are determined by their specification: any ascending list of slot
      numbers from 1 to `SlotCount` that holds exactly the slots naming an ingredient is
      the kept list. */
  lemma KeptSlotsUnique(m: Meal, s: seq<nat>)
    requires Ascending(s)
    requires forall k :: 0 <= k < |s| ==> 1 <= s[k] <= SlotCount
    requires forall i :: 1 <= i <= SlotCount ==> (Kept(m, i) <==> i in s)
    ensures KeptSlots(m) == s
  {
    KeptSlotsSpec(m);
    var t := KeptSlots(m);
    forall x ensures x in t <==> x in s {
      if x in t {
        var k :| 0 <= k < |t| && t[k] == x;
      }
      if x in s {
        var k :| 0 <= k < |s| && s[k] == x;
      }
    }
    AscendingUnique(t, s);
  }

  /** The slot loop of the search handler: walks slots 1 to 14 and pushes a pair for
      every slot whose ingredient is non-blank. */
  method CollectIngredients(m: Meal) returns (ingredients: seq<Ingredient>)
    ensures ingredients == IngredientsOf(m)
  {
    ingredients := [];
    ghost var slots: seq<nat> := [];
    var i: nat := 1;
    while i <= SlotCount
      invariant 1 <= i <= SlotCount + 1
      invariant slots == SlotsBelow(m, i)
      invariant |ingredients| == |slots|
      invariant forall k :: 0 <= k < |slots| ==> ingredients[k] == PairAt(m, slots[k])
    {
      var ing := IngredientSlot(m, i);
      var meas := MeasureSlot(m, i);
      if NamesIngredient(ing) {
        ingredients := ingredients + [Ingredient(ing.value, Trim(meas.GetOr("")))];
        slots := slots + [i];
      }
      i := i + 1;
    }
    assert slots == KeptSlots(m);
  }

  /** The ingredient slots of the example meal below. */
  predicate ExampleSlots(m: Meal) {
    && m.strIngredients == [Some("Salt"), None, Some(" "), Some("Egg")]
    && m.strMeasures == [Some(" 1 tsp"), None, None, None]
  }

  lemma ExampleKept(m: Meal)
    requires ExampleSlots(m)
    ensures forall i :: 1 <= i <= SlotCount ==> (Kept(m, i) <==> i == 1 || i == 4)
  {
    TrimSpec("Salt");
    TrimSpec("Egg");
    TrimSpec(" ");
  }

  lemma ExampleKeptSlots(m: Meal)
    requires ExampleSlots(m)
    ensures KeptSlots(m) == [1, 4]
  {
    ExampleKept(m);
    KeptSlotsUnique(m, [1, 4]);
  }

  /** A meal with "Salt" (measure " 1 tsp") in slot 1, nothing in slot 2, a blank slot 3
      and "Egg" without a measure in slot 4 normalises to two pairs: the blank and empty
      slots are skipped, the measure is trimmed and the missing one becomes "". */
  lemma NormaliseExample(m: Meal)
    requires ExampleSlots(m)
    ensures IngredientsOf(m) == [Ingredient("Salt", "1 tsp"), Ingredient("Egg", "")]
  {
    ExampleKeptSlots(m);
    assert TrimStart(" 1 tsp") == TrimStart("1 tsp");
    TrimSpec("1 tsp");
    TrimSpec("");
  }

  /** `{ ...meal, ingredients }`: every field but `ingredients` is copied unchanged. */
  function Normalise(m: Meal): (r: Meal)
    ensures r.(ingredients := m.ingredients) == m
    ensures r.ingredients == Some(IngredientsOf(m))
  {
    m.(ingredients := Some(IngredientsOf(m)))
  }

  /** What a search request produced: the request or its body failed, or the body's
      `meals` field, which is `null` when nothing matched. */
  datatype SearchResponse = FetchFailed | Fetched(meals: Option<seq<Meal>>)

  /** The meals the page shows after a search: none when the request failed or `meals`
      was null, otherwise exactly one normalised meal per returned meal, in order. */
  function SearchResults(resp: SearchResponse): (r: seq<Meal>)
    ensures resp.FetchFailed? || resp.meals.None? ==> r == []
    ensures resp.Fetched? && resp.meals.Some? ==>
      |r| == |resp.meals.value| &&
      forall k :: 0 <= k < |r| ==> r[k] == Normalise(resp.meals.value[k])
  {
    match resp
    case FetchFailed => []
    case Fetched(None) => []
    case Fetched(Some(ms)) => seq(|ms|, k requires 0 <= k < |ms| => Normalise(ms[k]))
  }

  /** Trims every piece. */
  function TrimAll(pieces: seq<string>): (r: seq<string>)
    ensures |r| == |pieces|
    ensures forall k :: 0 <= k < |r| ==> r[k] == Trim(pieces[k]) && IsTrimmed(r[k])
  {
    assert forall k :: 0 <= k < |pieces| ==> IsTrimmed(Trim(pieces[k])) by {
      forall k | 0 <= k < |pieces| ensures IsTrimmed(Trim(pieces[k])) {
        TrimSpec(pieces[k]);
      }
    }
    seq(|pieces|, k requires 0 <= k < |pieces| => Trim(pieces[k]))
  }

  /** `filter(Boolean)` on strings: keeps the non-empty ones. */
  function NonEmpty(t: string): bool {
    t != ""
  }

  /** `strTags.split(",").map(t => t.trim()).filter(Boolean)`, shown only when `strTags`
      is truthy: every tag is non-empty, trimmed and free of commas. `TagsOfComma` and
      `TagsOfPiece` fix the tags of every string. */
  function Tags(strTags: Option<string>): (r: seq<string>)
    ensures strTags.None? || strTags.value == "" ==> r == []
    ensures forall k :: 0 <= k < |r| ==> r[k] != "" && IsTrimmed(r[k]) && ',' !in r[k]
  {
    if strTags.None? || strTags.value == "" then []
    else
      var pieces := Split(strTags.value, ',');
      var r := Filter(TrimAll(pieces), NonEmpty);
      assert forall k :: 0 <= k < |r| ==> ',' !in r[k] by {
        forall k | 0 <= k < |r| ensures ',' !in r[k] {
          var j :| 0 <= j < |pieces| && r[k] == Trim(pieces[j]);
          TrimInfix(pieces[j]);
        }
      }
      r
  }

  /** Every character of a trimmed string comes from the original. */
  lemma TrimInfix(s: string)
    ensures forall c :: c in Trim(s) ==> c in s
  {
    var t := TrimStart(s);
    TrimStartSpec(s);
    TrimEndSpec(t);
    assert forall c :: c in t ==> c in s by {
      assert t == s[|s| - |t|..];
    }
  }

  /** The truthiness guard only skips `""`, whose single empty piece yields no tag anyway:
      the tags of any string are its trimmed, non-empty pieces. */
  lemma TagsOfText(s: string)
    ensures Tags(Some(s)) == Filter(TrimAll(Split(s, ',')), NonEmpty)
  {
    if s == "" {
      TrimSpec("");
      assert TrimAll([""]) == [""];
      FilterKeepsNone([""], NonEmpty);
    }
  }

  lemma TrimAllConcat(a: seq<string>, b: seq<string>)
    ensures TrimAll(a + b) == TrimAll(a) + TrimAll(b)
  {
  }

  /** A comma splits the tags: the tags of `a + "," + b` are those of `a` followed by those
      of `b`, in order. */
  lemma TagsOfComma(a: string, b: string)
    ensures Tags(Some(a + "," + b)) == Tags(Some(a)) + Tags(Some(b))
  {
    TagsOfText(a);
    TagsOfText(b);
    TagsOfText(a + "," + b);
    SplitConcat(a, b, ',');
    TrimAllConcat(Split(a, ','), Split(b, ','));
    FilterConcat(TrimAll(Split(a, ',')), TrimAll(Split(b, ',')), NonEmpty);
  }

  /** A comma-free piece yields its trimmed text as one tag, or nothing when it is blank. */
  lemma TagsOfPiece(p: string)
    requires ',' !in p
    ensures Tags(Some(p)) == if IsBlank(p) then [] else [Trim(p)]
  {
    TagsOfText(p);
    SplitJoin([p], ',');
    assert Split(p, ',') == [p];
    TrimSpec(p);
    assert TrimAll([p]) == [Trim(p)];
    if IsBlank(p) {
      FilterKeepsNone([Trim(p)], NonEmpty);
    } else {
      FilterKeepsAll([Trim(p)], NonEmpty);
    }
  }

  /** Joining tags that are already non-empty, trimmed and comma-free with "," and
      splitting them again yields the same tags. */
  lemma {:induction false} TagsOfJoin(tags: seq<string>)
    requires |tags| >= 1
    requires forall k :: 0 <= k < |tags| ==> tags[k] != "" && IsTrimmed(tags[k]) && ',' !in tags[k]
    ensures Tags(Some(Join(tags, ','))) == tags
  {
    SplitJoin(tags, ',');
    var s := Join(tags, ',');
    assert s != "" by {
      JoinNonEmpty(tags, ',');
    }
    assert TrimAll(Split(s, ',')) == tags;
    FilterKeepsAll(tags, NonEmpty);
  }

  lemma {:induction false} JoinNonEmpty(parts: seq<string>, sep: char)
    requires |parts| >= 1 && parts[0] != ""
    ensures Join(parts, sep) != ""
  {
    if |parts| > 1 {
      assert Join(parts, sep)[0] == parts[0][0];
    }
  }

  /** The tag string `"Soup, Quick,  "` yields the tags `Soup` and `Quick`. */
  lemma TagsExample(strTags: string)
    requires strTags == "Soup, Quick,  "
    ensures Tags(Some(strTags)) == ["Soup", "Quick"]
  {
    ExamplePieces(strTags);
    ExampleTrims();
    var keep := NonEmpty;
    var kept: seq<string> := ["Soup", "Quick"];
    assert TrimAll(["Soup", " Quick", "  "]) == kept + [""];
    FilterConcat(kept, [""], keep);
    FilterKeepsAll(kept, keep);
    FilterKeepsNone([""], keep);
  }

  lemma ExamplePieces(s: string)
    requires s == "Soup, Quick,  "
    ensures Split(s, ',') == ["Soup", " Quick", "  "]
  {
    var pieces := ["Soup", " Quick", "  "];
    assert Join(pieces[2..], ',') == "  ";
    assert Join(pieces[1..], ',') == " Quick,  ";
    assert Join(pieces, ',') == s;
    SplitJoin(pieces, ',');
  }

  lemma ExampleTrims()
    ensures Trim("Soup") == "Soup" && Trim(" Quick") == "Quick" && Trim("  ") == ""
  {
    TrimSpec("Soup");
    assert TrimStart(" Quick") == TrimStart("Quick");
    TrimSpec("Quick");
    TrimSpec("  ");
  }

  /** `m => m.idMeal !== id`. */
  function OtherThan(id: string): Meal -> bool {
    (m: Meal) => m.idMeal != id
  }

  /** `favorites.some(m => m.idMeal === meal.idMeal)`: holds exactly when filtering the
      meal's id out of the list drops an entry. */
  function IsFavorite(favorites: seq<Meal>, meal: Meal): (b: bool)
    ensures b <==> |WithoutId(favorites, meal.idMeal)| < |favorites|
  {
    FilterShorter(favorites, OtherThan(meal.idMeal));
    exists k :: 0 <= k < |favorites| && favorites[k].idMeal == meal.idMeal
  }

  /** `favorites.filter(m => m.idMeal !== id)`: drops every entry with that id; the order
      of the others is fixed by `WithoutIdConcat`. */
  function WithoutId(favorites: seq<Meal>, id: string): (r: seq<Meal>)
    ensures forall k :: 0 <= k < |r| ==> r[k].idMeal != id && r[k] in favorites
    ensures forall k :: 0 <= k < |favorites| && favorites[k].idMeal != id ==> favorites[k] in r
  {
    Filter(favorites, OtherThan(id))
  }

  /** Removal by id keeps the others in order: it distributes over concatenation and keeps
      a single entry exactly when its id differs. */
  lemma WithoutIdConcat(a: seq<Meal>, b: seq<Meal>, id: string)
    ensures WithoutId(a + b, id) == WithoutId(a, id) + WithoutId(b, id)
    ensures forall m: Meal :: WithoutId([m], id) == if m.idMeal == id then [] else [m]
  {
    FilterConcat(a, b, OtherThan(id));
    forall m: Meal
      ensures WithoutId([m], id) == if m.idMeal == id then [] else [m]
    {
      assert [m][1..] == [];
    }
  }

  /** What localStorage holds under a key: the JSON text of a meal list, the empty
      string, or text that `JSON.parse` rejects. */
  datatype Stored = Serialized(meals: seq<Meal>) | EmptyText | Unparsable

  /** The page's favourites list together with the browser storage it persists to. */
  datatype Client = Client(favorites: seq<Meal>, storage: map<string, Stored>)

  /** The list a page reads from storage, if any: `None` when the key is missing, its text
      is empty (`!raw`) or its text does not parse (the error is caught and logged). */
  function ReadFavorites(storage: map<string, Stored>): (r: Option<seq<Meal>>)
    ensures r.Some? <==> FavKey in storage && storage[FavKey].Serialized?
    ensures r.Some? ==> r.value == storage[FavKey].meals
  {
    if FavKey in storage && storage[FavKey].Serialized? then Some(storage[FavKey].meals)
    else None
  }

  /** `loadFavorites`: replaces the list with the stored one, and leaves the client
      untouched when nothing readable is stored. */
  function LoadFavorites(c: Client): (r: Client)
    ensures r.storage == c.storage
    ensures ReadFavorites(c.storage).None? ==> r == c
    ensures ReadFavorites(c.storage).Some? ==> r.favorites == ReadFavorites(c.storage).value
  {
    match ReadFavorites(c.storage)
    case None => c
    case Some(ms) => c.(favorites := ms)
  }

  /** `saveFavorites(items)`: the in-memory list becomes `items` first; the write of the
      whole list under the key may fail (`writable` false), which is caught and leaves
      storage as it was. Only the favourites key is touched. */
  function SaveFavorites(c: Client, items: seq<Meal>, writable: bool): (r: Client)
    ensures r.favorites == items
    ensures writable ==> ReadFavorites(r.storage) == Some(items)
    ensures !writable ==> r.storage == c.storage
    ensures forall key :: key in c.storage && key != FavKey ==> key in r.storage && r.storage[key] == c.storage[key]
    ensures r.storage.Keys <= c.storage.Keys + {FavKey}
  {
    Client(items, if writable then c.storage[FavKey := Serialized(items)] else c.storage)
  }

  /** The result of toggling a meal: the updated client and whether the page navigates
      to the favourites view. */
  datatype Toggled = Toggled(client: Client, redirect: bool)

  /** `toggleFavorite(meal)`: removes every entry with the meal's id if there is one,
      otherwise appends the meal and asks for a redirect; saves the new list either way. */
  function ToggleFavorite(c: Client, meal: Meal, writable: bool): (r: Toggled)
    ensures r.redirect <==> !IsFavorite(c.favorites, meal)
    ensures r.client == SaveFavorites(c, r.client.favorites, writable)
    ensures !IsFavorite(c.favorites, meal) ==>
      r.client.favorites == c.favorites + [meal]
    ensures IsFavorite(c.favorites, meal) ==>
      r.client.favorites == WithoutId(c.favorites, meal.idMeal)
    ensures IsFavorite(r.client.favorites, meal) <==> !IsFavorite(c.favorites, meal)
  {
    if IsFavorite(c.favorites, meal) then
      var updated := WithoutId(c.favorites, meal.idMeal);
      Toggled(SaveFavorites(c, updated, writable), false)
    else
      var updated := c.favorites + [meal];
      assert updated[|c.favorites|] == meal;
      Toggled(SaveFavorites(c, updated, writable), true)
  }

  /** Toggling a meal that is not yet a favourite and then toggling it again gives back the
      original list, and the second toggle neither adds nor redirects. */
  lemma ToggleTwice(c: Client, meal: Meal, w1: bool, w2: bool)
    requires !IsFavorite(c.favorites, meal)
    ensures var first := ToggleFavorite(c, meal, w1);
            var second := ToggleFavorite(first.client, meal, w2);
            first.redirect && !second.redirect && second.client.favorites == c.favorites
  {
    FilterConcat(c.favorites, [meal], OtherThan(meal.idMeal));
    FilterKeepsAll(c.favorites, OtherThan(meal.idMeal));
  }
}

=== FILE: schema.dfy ===
/** The three tables of the backend and what the database engine enforces on them:
    NOT NULL columns, the unique email, the unique (user, recipe) favourite pair,
    AUTOINCREMENT ids and, when the engine enforces them, the REFERENCES clauses.
    A failed statement changes nothing. */
module Schema {
  import opened Options
  import opened Seqs

  datatype User = User(id: int, name: string, email: string)

  datatype Recipe = Recipe(
    id: int,
    title: string,
    description: Option<string>,
    imageUrl: Option<string>,
    ingredients: string,
    createdBy: int)

  datatype Favorite = Favorite(id: int, userId: int, recipeId: int)

  /** The database: each table's rows in id order, each table's AUTOINCREMENT counter
      (the largest id it ever handed out) and whether foreign keys are enforced. */
  datatype Db = Db(
    users: seq<User>,
    recipes: seq<Recipe>,
    favorites: seq<Favorite>,
    lastUserId: nat,
    lastRecipeId: nat,
    lastFavoriteId: nat,
    foreignKeys: bool)

  /** Why the engine refused a statement. */
  datatype SqlError =
    | NotNullViolation(column: string)
    | UniqueViolation(index: string)
    | ForeignKeyViolation(column: string)

  /** A freshly created database. */
  function EmptyDb(foreignKeys: bool): (db: Db)
    ensures Valid(db)
  {
    Db([], [], [], 0, 0, 0, foreignKeys)
  }

  function UserIdBefore(a: User, b: User): bool { a.id < b.id }
  function EmailsDiffer(a: User, b: User): bool { a.email != b.email }
  function RecipeIdBefore(a: Recipe, b: Recipe): bool { a.id < b.id }
  function FavoriteIdBefore(a: Favorite, b: Favorite): bool { a.id < b.id }
  function FavoriteIdsDiffer(a: Favorite, b: Favorite): bool { a.id != b.id }
  function PairsDiffer(a: Favorite, b: Favorite): bool {
    a.userId != b.userId || a.recipeId != b.recipeId
  }

  function UserIds(db: Db): set<int> {
    set u | u in db.users :: u.id
  }

  function RecipeIds(db: Db): set<int> {
    set r | r in db.recipes :: r.id
  }

  /** The invariants the schema declares, as they hold of every reachable database:
      ids ascend in each table and never exceed the table's counter; no two users share
      an email; no two favourites share a (user, recipe) pair; and, when enforced, every
      recipe's owner and every favourite's user and recipe exist. */
  ghost predicate Valid(db: Db) {
    && Pairwise(db.users, UserIdBefore)
    && Pairwise(db.recipes, RecipeIdBefore)
    && Pairwise(db.favorites, FavoriteIdBefore)
    && (forall u :: u in db.users ==> 1 <= u.id <= db.lastUserId)
    && (forall r :: r in db.recipes ==> 1 <= r.id <= db.lastRecipeId)
    && (forall f :: f in db.favorites ==> 1 <= f.id <= db.lastFavoriteId)
    && Pairwise(db.users, EmailsDiffer)
    && Pairwise(db.favorites, PairsDiffer)
    && (db.foreignKeys ==>
          && (forall r :: r in db.recipes ==> r.createdBy in UserIds(db))
          && (forall f :: f in db.favorites ==> f.userId in UserIds(db) && f.recipeId in RecipeIds(db)))
  }

  predicate EmailTaken(db: Db, email: string) {
    exists k :: 0 <= k < |db.users| && db.users[k].email == email
  }

  predicate PairTaken(db: Db, userId: int, recipeId: int) {
    exists k :: 0 <= k < |db.favorites| && db.favorites[k].userId == userId && db.favorites[k].recipeId == recipeId
  }

  /** Appending a user under the next id with an unused email keeps the invariants. */
  lemma AppendUserValid(db: Db, row: User)
    requires row.id == db.lastUserId + 1 && !EmailTaken(db, row.email)
    ensures Valid(db) ==> Valid(db.(users := db.users + [row], lastUserId := row.id))
  {
    if Valid(db) {
      var d := db.(users := db.users + [row], lastUserId := row.id);
      PairwiseSnoc(db.users, row, UserIdBefore);
      forall u | u in db.users ensures EmailsDiffer(u, row) {
        var k :| 0 <= k < |db.users| && db.users[k] == u;
      }
      PairwiseSnoc(db.users, row, EmailsDiffer);
      assert UserIds(db) <= UserIds(d);
    }
  }

  /** Appending a recipe under the next id keeps the invariants, provided its owner exists
      whenever foreign keys are enforced. */
  lemma AppendRecipeValid(db: Db, row: Recipe)
    requires row.id == db.lastRecipeId + 1
    requires db.foreignKeys ==> row.createdBy in UserIds(db)
    ensures Valid(db) ==> Valid(db.(recipes := db.recipes + [row], lastRecipeId := row.id))
  {
    if Valid(db) {
      var d := db.(recipes := db.recipes + [row], lastRecipeId := row.id);
      PairwiseSnoc(db.recipes, row, RecipeIdBefore);
      assert RecipeIds(db) <= RecipeIds(d);
    }
  }

  /** Appending a favourite under the next id with an unused pair keeps the invariants,
      provided its user and recipe exist whenever foreign keys are enforced. */
  lemma AppendFavoriteValid(db: Db, row: Favorite)
    requires row.id == db.lastFavoriteId + 1 && !PairTaken(db, row.userId, row.recipeId)
    requires db.foreignKeys ==> row.userId in UserIds(db) && row.recipeId in RecipeIds(db)
    ensures Valid(db) ==> Valid(db.(favorites := db.favorites + [row], lastFavoriteId := row.id))
  {
    if Valid(db) {
      PairwiseSnoc(db.favorites, row, FavoriteIdBefore);
      forall f | f in db.favorites ensures PairsDiffer(f, row) {
        var k :| 0 <= k < |db.favorites| && db.favorites[k] == f;
      }
      PairwiseSnoc(db.favorites, row, PairsDiffer);
    }
  }

  /** `INSERT INTO users (name, email)`: refused when a NOT NULL column gets NULL or the
      email is taken; otherwise appends one user under the next id and changes nothing
      else. */
  function InsertUser(db: Db, name: Option<string>, email: Option<string>): (r: Result<Db, SqlError>)
    ensures r.Failure? <==> name.None? || email.None? || EmailTaken(db, email.value)
    ensures r.Success? ==>
      && r.value.lastUserId == db.lastUserId + 1
      && r.value.users == db.users + [User(r.value.lastUserId, name.value, email.value)]
      && r.value == db.(users := r.value.users, lastUserId := r.value.lastUserId)
    ensures Valid(db) && r.Success? ==> Valid(r.value)
    ensures Valid(db) && r.Success? ==> forall u :: u in db.users ==> u.id < r.value.lastUserId
  {
    if name.None? then Failure(NotNullViolation("users.name"))
    else if email.None? then Failure(NotNullViolation("users.email"))
    else if EmailTaken(db, email.value) then Failure(UniqueViolation("users.email"))
    else
      var id := db.lastUserId + 1;
      var row := User(id, name.value, email.value);
      AppendUserValid(db, row);
      Success(db.(users := db.users + [row], lastUserId := id))
  }

  /** `INSERT INTO recipes`: refused when title, ingredients or owner is NULL, or when
      foreign keys are enforced and the owner is not a user; otherwise appends one recipe
      under the next id and changes nothing else. */
  function InsertRecipe(db: Db, title: Option<string>, description: Option<string>, imageUrl: Option<string>,
                        ingredients: Option<string>, createdBy: Option<int>): (r: Result<Db, SqlError>)
    ensures r.Failure? <==>
      || title.None? || ingredients.None? || createdBy.None?
      || (db.foreignKeys && createdBy.value !in UserIds(db))
    ensures r.Success? ==>
      && r.value.lastRecipeId == db.lastRecipeId + 1
      && r.value.recipes == db.recipes +
           [Recipe(r.value.lastRecipeId, title.value, description, imageUrl, ingredients.value, createdBy.value)]
      && r.value == db.(recipes := r.value.recipes, lastRecipeId := r.value.lastRecipeId)
    ensures Valid(db) && r.Success? ==> Valid(r.value)
    ensures Valid(db) && r.Success? ==> forall x :: x in db.recipes ==> x.id < r.value.lastRecipeId
  {
    if title.None? then Failure(NotNullViolation("recipes.title"))
    else if ingredients.None? then Failure(NotNullViolation("recipes.ingredients"))
    else if createdBy.None? then Failure(NotNullViolation("recipes.created_by"))
    else if db.foreignKeys && createdBy.value !in UserIds(db) then Failure(ForeignKeyViolation("recipes.created_by"))
    else
      var id := db.lastRecipeId + 1;
      var row := Recipe(id, title.value, description, imageUrl, ingredients.value, createdBy.value);
      AppendRecipeValid(db, row);
      Success(db.(recipes := db.recipes + [row], lastRecipeId := id))
  }

  /** `INSERT INTO favorites (user_id, recipe_id)`: refused when either column is NULL, the
      pair is already present, or foreign keys are enforced and the user or recipe does not
      exist; otherwise appends one row under the next id and changes nothing else. */
  function InsertFavorite(db: Db, userId: Option<int>, recipeId: Option<int>): (r: Result<Db, SqlError>)
    ensures r.Failure? <==>
      || userId.None? || recipeId.None?
      || PairTaken(db, userId.value, recipeId.value)
      || (db.foreignKeys && (userId.value !in UserIds(db) || recipeId.value !in RecipeIds(db)))
    ensures r.Success? ==>
      && r.value.lastFavoriteId == db.lastFavoriteId + 1
      && r.value.favorites == db.favorites + [Favorite(r.value.lastFavoriteId, userId.value, recipeId.value)]
      && r.value == db.(favorites := r.value.favorites, lastFavoriteId := r.value.lastFavoriteId)
    ensures Valid(db) && r.Success? ==> Valid(r.value)
    ensures Valid(db) && r.Success? ==> forall f :: f in db.favorites ==> f.id < r.value.lastFavoriteId
  {
    if userId.None? then Failure(NotNullViolation("favorites.user_id"))
    else if recipeId.None? then Failure(NotNullViolation("favorites.recipe_id"))
    else if PairTaken(db, userId.value, recipeId.value) then Failure(UniqueViolation("favorite_user_recipe_unique"))
    else if db.foreignKeys && userId.value !in UserIds(db) then Failure(ForeignKeyViolation("favorites.user_id"))
    else if db.foreignKeys && recipeId.value !in RecipeIds(db) then Failure(ForeignKeyViolation("favorites.recipe_id"))
    else
      var id := db.lastFavoriteId + 1;
      var row := Favorite(id, userId.value, recipeId.value);
      AppendFavoriteValid(db, row);
      Success(db.(favorites := db.favorites + [row], lastFavoriteId := id))
  }

  /** `user_id = ? AND recipe_id = ?` with the bound values; a NULL binding matches no row. */
  predicate MatchesPair(f: Favorite, userId: Option<int>, recipeId: Option<int>) {
    userId.Some? && recipeId.Some? && f.userId == userId.value && f.recipeId == recipeId.value
  }

  /** `DELETE FROM favorites WHERE user_id = ? AND recipe_id = ?`: removes every matching
      row, keeps the others in order and never fails, even when nothing matches. */
  function DeleteFavorites(db: Db, userId: Option<int>, recipeId: Option<int>): (d: Db)
    ensures d == db.(favorites := d.favorites)
    ensures forall k :: 0 <= k < |d.favorites| ==>
      d.favorites[k] in db.favorites && !MatchesPair(d.favorites[k], userId, recipeId)
    ensures forall k :: 0 <= k < |db.favorites| && !MatchesPair(db.favorites[k], userId, recipeId) ==>
      db.favorites[k] in d.favorites
    ensures Valid(db) ==> Valid(d)
  {
    var kept := Filter(db.favorites, (f: Favorite) => !MatchesPair(f, userId, recipeId));
    var d := db.(favorites := kept);
    assert Valid(db) ==> Valid(d) by {
      if Valid(db) {
        FilterPairwise(db.favorites, (f: Favorite) => !MatchesPair(f, userId, recipeId), FavoriteIdBefore);
        FilterPairwise(db.favorites, (f: Favorite) => !MatchesPair(f, userId, recipeId), PairsDiffer);
      }
    }
    d
  }

  /** `SELECT * FROM users WHERE email = ?`. */
  function UsersWithEmail(db: Db, email: string): (r: seq<User>)
    ensures forall k :: 0 <= k < |r| ==> r[k] in db.users && r[k].email == email
    ensures |r| == 0 <==> !EmailTaken(db, email)
  {
    var r := Filter(db.users, (u: User) => u.email == email);
    assert EmailTaken(db, email) ==> |r| > 0 by {
      if EmailTaken(db, email) {
        var k :| 0 <= k < |db.users| && db.users[k].email == email;
        assert db.users[k] in r;
      }
    }
    assert |r| > 0 ==> EmailTaken(db, email) by {
      if |r| > 0 {
        var k :| 0 <= k < |db.users| && db.users[k] == r[0];
      }
    }
    r
  }

  /** `favorites.userId = userId`. */
  function OfUser(userId: int): Favorite -> bool {
    (f: Favorite) => f.userId == userId
  }

  /** `SELECT * FROM favorites WHERE user_id = ?`: exactly the rows of that user, each
      once. The query has no `ORDER BY`, so the order is the engine's choice; the model
      returns the rows in id order but promises no order. */
  function FavoritesOfUser(db: Db, userId: int): (r: seq<Favorite>)
    ensures forall k :: 0 <= k < |r| ==> r[k] in db.favorites && r[k].userId == userId
    ensures forall k :: 0 <= k < |db.favorites| && db.favorites[k].userId == userId ==> db.favorites[k] in r
    ensures Valid(db) ==> Pairwise(r, FavoriteIdsDiffer)
  {
    assert Valid(db) ==> Pairwise(Filter(db.favorites, OfUser(userId)), FavoriteIdsDiffer) by {
      if Valid(db) {
        FilterPairwise(db.favorites, OfUser(userId), FavoriteIdBefore);
      }
    }
    Filter(db.favorites, OfUser(userId))
  }

  /** The row with the largest id (`ORDER BY id DESC LIMIT 1` on a non-empty table). */
  function HighestId(rs: seq<Recipe>): (r: Recipe)
    requires |rs| > 0
    ensures r in rs
    ensures forall k :: 0 <= k < |rs| ==> rs[k].id <= r.id
  {
    if |rs| == 1 then rs[0]
    else
      var best := HighestId(rs[1..]);
      assert forall k :: 1 <= k < |rs| ==> rs[k] == rs[1..][k - 1];
      if rs[0].id > best.id then rs[0] else best
  }

  /** `SELECT * FROM recipes ORDER BY id DESC LIMIT 1`. */
  function LatestRecipe(db: Db): (r: seq<Recipe>)
    ensures |r| <= 1
    ensures |r| == 0 <==> |db.recipes| == 0
    ensures |r| == 1 ==> r[0] in db.recipes && forall x :: x in db.recipes ==> x.id <= r[0].id
  {
    if |db.recipes| == 0 then [] else [HighestId(db.recipes)]
  }

  /** Right after an insert, the latest recipe is the row just inserted: its id is larger
      than every id already in the table. */
  lemma LatestIsInserted(db: Db, title: Option<string>, description: Option<string>, imageUrl: Option<string>,
                         ingredients: Option<string>, createdBy: Option<int>)
    requires InsertRecipe(db, title, description, imageUrl, ingredients, createdBy).Success?
    ensures var d := InsertRecipe(db, title, description, imageUrl, ingredients, createdBy).value;
            Valid(db) ==> LatestRecipe(d) == [d.recipes[|d.recipes| - 1]]
  {
  }

  /** With unique emails, looking a user's email up finds that user and nobody else. */
  lemma EmailLookupUnique(db: Db, u: User)
    requires Valid(db)
    requires u in db.users
    ensures UsersWithEmail(db, u.email) == [u]
  {
    var keep := (x: User) => x.email == u.email;
    forall i, j | 0 <= i < j < |db.users| && keep(db.users[i])
      ensures !keep(db.users[j])
    {
      assert EmailsDiffer(db.users[i], db.users[j]);
    }
    FilterSingle(db.users, keep, u);
  }

  /** The favourite rows carrying one (user, recipe) pair. */
  function PairRows(db: Db, userId: int, recipeId: int): seq<Favorite> {
    Filter(db.favorites, (f: Favorite) => f.userId == userId && f.recipeId == recipeId)
  }

  /** With unique pairs, a present pair is carried by exactly one row. */
  lemma PairRowsSingle(db: Db, f: Favorite)
    requires Valid(db)
    requires f in db.favorites
    ensures PairRows(db, f.userId, f.recipeId) == [f]
  {
    var keep := (x: Favorite) => x.userId == f.userId && x.recipeId == f.recipeId;
    forall i, j | 0 <= i < j < |db.favorites| && keep(db.favorites[i])
      ensures !keep(db.favorites[j])
    {
      assert PairsDiffer(db.favorites[i], db.favorites[j]);
    }
    FilterSingle(db.favorites, keep, f);
  }
}

=== FILE: seqs.dfy ===
/** Order-preserving filtering of sequences and pairwise properties that filtering keeps. */
module Seqs {

  /** The elements of `s` that satisfy `keep`, in their original order
      (JavaScript's `Array.prototype.filter`, and a SQL `WHERE` read over a table in rowid order). */
  function Filter<T>(s: seq<T>, keep: T -> bool): (r: seq<T>)
    ensures |r| <= |s|
    ensures forall k :: 0 <= k < |r| ==> r[k] in s && keep(r[k])
    ensures forall k :: 0 <= k < |s| && keep(s[k]) ==> s[k] in r
  {
    if |s| == 0 then []
    else (if keep(s[0]) then [s[0]] else []) + Filter(s[1..], keep)
  }

  /** Nothing is kept when no element satisfies `keep`. */
  lemma FilterKeepsNone<T>(s: seq<T>, keep: T -> bool)
    requires forall k :: 0 <= k < |s| ==> !keep(s[k])
    ensures Filter(s, keep) == []
  {
    var r := Filter(s, keep);
    if r != [] {
      var k :| 0 <= k < |s| && s[k] == r[0];
    }
  }

  /** When at most one element of `s` satisfies `keep` and `x` is one that does, filtering
      yields exactly `[x]`. */
  lemma {:induction false} FilterSingle<T>(s: seq<T>, keep: T -> bool, x: T)
    requires x in s && keep(x)
    requires forall i, j :: 0 <= i < j < |s| && keep(s[i]) ==> !keep(s[j])
    ensures Filter(s, keep) == [x]
    decreases |s|
  {
    var t := s[1..];
    if keep(s[0]) {
      forall k | 0 <= k < |t|
        ensures !keep(t[k])
      {
        assert t[k] == s[k + 1];
      }
      var i :| 0 <= i < |s| && s[i] == x;
      assert i == 0;
      FilterKeepsNone(t, keep);
    } else {
      assert x in t;
      forall i, j | 0 <= i < j < |t| && keep(t[i])
        ensures !keep(t[j])
      {
        assert t[i] == s[i + 1] && t[j] == s[j + 1];
      }
      FilterSingle(t, keep, x);
    }
  }

  /** `R` holds of every pair of elements taken in their order in `s`. */
  ghost predicate Pairwise<T>(s: seq<T>, R: (T, T) -> bool) {
    forall i, j :: 0 <= i < j < |s| ==> R(s[i], s[j])
  }

  /** Filtering distributes over concatenation: together with the one-element cases
      this pins down that `Filter` keeps exactly the chosen elements in order. */
  lemma {:induction false} FilterConcat<T>(a: seq<T>, b: seq<T>, keep: T -> bool)
    ensures Filter(a + b, keep) == Filter(a, keep) + Filter(b, keep)
    decreases |a|
  {
    if |a| == 0 {
      assert a + b == b;
    } else {
      assert (a + b)[0] == a[0];
      assert (a + b)[1..] == a[1..] + b;
      FilterConcat(a[1..], b, keep);
    }
  }

  /** Nothing is dropped when every element is kept. */
  lemma {:induction false} FilterKeepsAll<T>(s: seq<T>, keep: T -> bool)
    requires forall x :: x in s ==> keep(x)
    ensures Filter(s, keep) == s
    decreases |s|
  {
    if |s| > 0 {
      assert s[0] in s;
      assert forall x :: x in s[1..] ==> x in s;
      FilterKeepsAll(s[1..], keep);
      assert [s[0]] + s[1..] == s;
    }
  }

  /** Filtering drops something exactly when some element fails `keep`. */
  lemma {:induction false} FilterShorter<T>(s: seq<T>, keep: T -> bool)
    ensures |Filter(s, keep)| < |s| <==> exists k :: 0 <= k < |s| && !keep(s[k])
    decreases |s|
  {
    if |s| > 0 {
      var t := s[1..];
      FilterShorter(t, keep);
      if exists k :: 0 <= k < |s| && !keep(s[k]) {
        var k :| 0 <= k < |s| && !keep(s[k]);
        assert k > 0 ==> t[k - 1] == s[k];
      }
      if exists k :: 0 <= k < |t| && !keep(t[k]) {
        var k :| 0 <= k < |t| && !keep(t[k]);
        assert s[k + 1] == t[k];
      }
    }
  }

  lemma PairwiseTail<T>(s: seq<T>, R: (T, T) -> bool)
    requires |s| > 0 && Pairwise(s, R)
    ensures Pairwise(s[1..], R)
    ensures forall y :: y in s[1..] ==> R(s[0], y)
  {
    forall y | y in s[1..]
      ensures R(s[0], y)
    {
      var k :| 0 <= k < |s[1..]| && s[1..][k] == y;
      assert s[k + 1] == y;
    }
  }

  lemma PairwiseCons<T>(x: T, t: seq<T>, R: (T, T) -> bool)
    requires Pairwise(t, R)
    requires forall y :: y in t ==> R(x, y)
    ensures Pairwise([x] + t, R)
  {
    var s := [x] + t;
    forall i, j | 0 <= i < j < |s|
      ensures R(s[i], s[j])
    {
      assert s[j] == t[j - 1];
      if i > 0 {
        assert s[i] == t[i - 1];
      } else {
        assert s[j] in t;
      }
    }
  }

  /** Filtering keeps every pairwise relation: the kept elements stay in their relative order. */
  lemma {:induction false} FilterPairwise<T>(s: seq<T>, keep: T -> bool, R: (T, T) -> bool)
    requires Pairwise(s, R)
    ensures Pairwise(Filter(s, keep), R)
    decreases |s|
  {
    if |s| > 0 {
      PairwiseTail(s, R);
      FilterPairwise(s[1..], keep, R);
      if keep(s[0]) {
        PairwiseCons(s[0], Filter(s[1..], keep), R);
      } else {
        assert Filter(s, keep) == Filter(s[1..], keep);
      }
    }
  }

  /** Appending an element related to every earlier one keeps a pairwise relation. */
  lemma PairwiseSnoc<T>(s: seq<T>, x: T, R: (T, T) -> bool)
    requires Pairwise(s, R)
    requires forall y :: y in s ==> R(y, x)
    ensures Pairwise(s + [x], R)
  {
    var t := s + [x];
    forall i, j | 0 <= i < j < |t|
      ensures R(t[i], t[j])
    {
      assert t[i] == s[i];
      if j == |s| {
        assert s[i] in s;
      } else {
        assert t[j] == s[j];
      }
    }
  }
}

=== FILE: text.dfy ===
/** The string primitives the app relies on: `String.prototype.trim`, `split` on one
    character, and the decimal rendering and reading of integers. Whitespace is the ASCII
    set; JavaScript's `trim` also removes the Unicode space separators. */
module Text {

  predicate IsSpace(c: char) {
    c == ' ' || c == '\t' || c == '\n' || c == '\r' || c == '\U{000B}' || c == '\U{000C}'
  }

  /** True when no character of `s` is a non-space: the string is blank. */
  predicate IsBlank(s: string) {
    forall k :: 0 <= k < |s| ==> IsSpace(s[k])
  }

  /** True when `s` neither starts nor ends with whitespace. */
  predicate IsTrimmed(s: string) {
    s == [] || (!IsSpace(s[0]) && !IsSpace(s[|s| - 1]))
  }

  /** `s` without its leading whitespace. */
  function TrimStart(s: string): (r: string)
    ensures |r| <= |s|
  {
    if |s| > 0 && IsSpace(s[0]) then TrimStart(s[1..]) else s
  }

  /** `TrimStart(s)` is the longest suffix of `s` that does not start with a space. */
  lemma {:induction false} TrimStartSpec(s: string)
    ensures TrimStart(s) == s[|s| - |TrimStart(s)|..]
    ensures forall k :: 0 <= k < |s| - |TrimStart(s)| ==> IsSpace(s[k])
    ensures TrimStart(s) != [] ==> !IsSpace(TrimStart(s)[0])
    decreases |s|
  {
    if |s| > 0 && IsSpace(s[0]) {
      TrimStartSpec(s[1..]);
    }
  }

  /** `s` without its trailing whitespace. */
  function TrimEnd(s: string): (r: string)
    ensures |r| <= |s|
  {
    if |s| > 0 && IsSpace(s[|s| - 1]) then TrimEnd(s[..|s| - 1]) else s
  }

  /** `TrimEnd(s)` is the longest prefix of `s` that does not end with a space. */
  lemma {:induction false} TrimEndSpec(s: string)
    ensures TrimEnd(s) == s[..|TrimEnd(s)|]
    ensures forall k :: |TrimEnd(s)| <= k < |s| ==> IsSpace(s[k])
    ensures TrimEnd(s) != [] ==> !IsSpace(TrimEnd(s)[|TrimEnd(s)| - 1])
    decreases |s|
  {
    if |s| > 0 && IsSpace(s[|s| - 1]) {
      TrimEndSpec(s[..|s| - 1]);
    }
  }

  /** JavaScript's `s.trim()`: leading and then trailing whitespace removed. */
  function Trim(s: string): (r: string)
    ensures |r| <= |s|
  {
    TrimEnd(TrimStart(s))
  }

  /** What trimming guarantees: the result has no whitespace at either end, it is empty
      exactly when `s` is blank, and a string without whitespace at its ends is unchanged. */
  lemma TrimSpec(s: string)
    ensures IsTrimmed(Trim(s))
    ensures Trim(s) == [] <==> IsBlank(s)
    ensures IsTrimmed(s) ==> Trim(s) == s
  {
    var t := TrimStart(s);
    TrimStartSpec(s);
    TrimEndSpec(t);
    assert t != [] ==> t[0] == s[|s| - |t|];
    assert Trim(s) == [] ==> t == [];
  }

  /** JavaScript's `parts.join(sep)` with a one-character separator. */
  function Join(parts: seq<string>, sep: char): string
    decreases |parts|
  {
    if |parts| == 0 then ""
    else if |parts| == 1 then parts[0]
    else parts[0] + [sep] + Join(parts[1..], sep)
  }

  /** JavaScript's `s.split(sep)` with a one-character separator: the pieces between
      separators, never fewer than one (`"".split(",")` is `[""]`), and joining them back
      with `sep` gives `s` again. */
  function Split(s: string, sep: char): (r: seq<string>)
    ensures |r| >= 1
    ensures forall k :: 0 <= k < |r| ==> sep !in r[k]
    ensures Join(r, sep) == s
    decreases |s|
  {
    if |s| == 0 then [""]
    else
      var rest := Split(s[1..], sep);
      if s[0] == sep then
        assert [sep] + s[1..] == s;
        [""] + rest
      else
        var r := [[s[0]] + rest[0]] + rest[1..];
        assert Join(r, sep) == s by {
          if |rest| == 1 {
            assert [s[0]] + s[1..] == s;
          } else {
            assert r[1..] == rest[1..];
            assert [s[0]] + (rest[0] + [sep] + Join(rest[1..], sep)) == s;
          }
        }
        r
  }

  /** Splitting a string that begins with a separator-free piece `p` puts `p` in front of
      the first piece of the remainder. */
  lemma {:induction false} SplitPrefix(p: string, rest: string, sep: char)
    requires sep !in p
    ensures Split(p + rest, sep) == [p + Split(rest, sep)[0]] + Split(rest, sep)[1..]
    decreases |p|
  {
    if |p| == 0 {
      assert p + rest == rest;
      var x := Split(rest, sep);
      assert p + x[0] == x[0];
      assert [x[0]] + x[1..] == x;
    } else {
      var s := p + rest;
      assert s[0] == p[0];
      assert s[1..] == p[1..] + rest;
      SplitPrefix(p[1..], rest, sep);
      assert [p[0]] + (p[1..] + Split(rest, sep)[0]) == p + Split(rest, sep)[0];
    }
  }

  /** `Split` undoes `Join` when no piece contains the separator. */
  lemma {:induction false} SplitJoin(parts: seq<string>, sep: char)
    requires |parts| >= 1
    requires forall k :: 0 <= k < |parts| ==> sep !in parts[k]
    ensures Split(Join(parts, sep), sep) == parts
    decreases |parts|
  {
    if |parts| == 1 {
      SplitPrefix(parts[0], "", sep);
      assert parts[0] + "" == parts[0];
      assert [parts[0]] == parts;
    } else {
      var tail := Join(parts[1..], sep);
      SplitJoin(parts[1..], sep);
      assert parts[0] + [sep] + tail == parts[0] + ([sep] + tail);
      SplitPrefix(parts[0], [sep] + tail, sep);
      assert ([sep] + tail)[1..] == tail;
      assert Split([sep] + tail, sep) == [""] + parts[1..];
      assert parts[0] + "" == parts[0];
      assert [parts[0]] + parts[1..] == parts;
    }
  }

  /** Splitting at a separator that stands between `a` and `b` splits each side on its
      own: the pieces of `a` are followed by the pieces of `b`. */
  lemma {:induction false} SplitConcat(a: string, b: string, sep: char)
    ensures Split(a + [sep] + b, sep) == Split(a, sep) + Split(b, sep)
    decreases |a|
  {
    var s := a + [sep] + b;
    if |a| == 0 {
      assert s[0] == sep && s[1..] == b;
    } else {
      assert s[0] == a[0];
      assert s[1..] == a[1..] + [sep] + b;
      SplitConcat(a[1..], b, sep);
    }
  }

  predicate IsDigit(c: char) {
    '0' <= c <= '9'
  }

  predicate AllDigits(s: string) {
    forall k :: 0 <= k < |s| ==> IsDigit(s[k])
  }

  function DigitChar(d: nat): (c: char)
    requires d < 10
    ensures IsDigit(c)
  {
    ('0' as int + d) as char
  }

  /** The value of a run of decimal digits, most significant first. */
  function DigitsValue(ds: string): nat
    requires AllDigits(ds)
    decreases |ds|
  {
    if |ds| == 0 then 0
    else DigitsValue(ds[..|ds| - 1]) * 10 + (ds[|ds| - 1] as int - '0' as int)
  }

  /** A leading zero does not change the value of a run of digits. */
  lemma {:induction false} DigitsLeadingZero(ds: string)
    requires AllDigits(ds)
    ensures AllDigits("0" + ds) && DigitsValue("0" + ds) == DigitsValue(ds)
    decreases |ds|
  {
    var z := "0" + ds;
    if |ds| > 0 {
      assert z[..|z| - 1] == "0" + ds[..|ds| - 1];
      DigitsLeadingZero(ds[..|ds| - 1]);
    }
  }

  /** The shortest decimal digits of `n`. */
  function NatText(n: nat): (r: string)
    ensures |r| >= 1 && AllDigits(r)
    decreases n
  {
    if n < 10 then [DigitChar(n)] else NatText(n / 10) + [DigitChar(n % 10)]
  }

  /** Reading back the digits of `n` gives `n`. */
  lemma {:induction false} NatTextValue(n: nat)
    ensures DigitsValue(NatText(n)) == n
    decreases n
  {
    if n >= 10 {
      var r := NatText(n);
      assert r[..|r| - 1] == NatText(n / 10);
      NatTextValue(n / 10);
    }
  }

  /** How JavaScript renders an integer-valued number as a string (`String(n)`). */
  function DecimalText(i: int): (r: string)
    ensures |r| >= 1 && IsTrimmed(r)
    ensures i >= 0 ==> AllDigits(r)
    ensures i < 0 ==> r[0] == '-' && |r| >= 2 && AllDigits(r[1..])
  {
    if i < 0 then "-" + NatText(-i) else NatText(i)
  }
}

=== FILE: worker.dfy ===
/** The backend's JSON routes as state transitions: each takes the database and the
    request, and yields a status, a payload and the new database. The database calls a
    handler makes are numbered from 0 in the order it makes them; `failAt` names the call
    that throws (a lost connection, a busy database), after which the handler's catch turns
    the error into a generic 500 and makes no further calls. */
module Worker {
  import opened Options
  import opened Seqs
  import opened Text
  import opened Js
  import opened Schema

  /** What a route sends back as JSON. */
  datatype Payload =
    | Ok                                // `{ ok: true }`
    | Error(message: string)            // `{ error: message }`
    | UserRow(user: User)
    | RecipeRows(recipes: seq<Recipe>)
    | RecipeRow(recipe: Recipe)
    | FavoriteRows(favorites: seq<Favorite>)

  datatype Response = Response(status: int, payload: Payload)

  datatype Outcome = Outcome(response: Response, db: Db)

  /** The API requests: the body of a POST or DELETE after `request.json()` (a parse
      failure is caught and becomes `Unparsable`), and for the favourites GET the value
      `url.searchParams.get("userId")` returns, already percent-decoded and with `+` read as
      a space (`None` when the parameter is missing). */
  datatype Request =
    | GetHealth
    | PostLogin(body: Body)
    | GetRecipes
    | PostRecipe(body: Body)
    | GetFavorites(userIdParam: Option<string>)
    | PostFavorite(body: Body)
    | DeleteFavorite(body: Body)

  const InvalidBody := "Invalid JSON body"

  /** How a JavaScript value is bound to a TEXT column: a string as itself, a number as its
      decimal text, `null` and `undefined` as NULL. */
  function TextOf(v: JsValue): (r: Option<string>)
    ensures r.None? <==> Nullish(v)
    ensures v.Str? ==> r == Some(v.s)
  {
    match v
    case Undefined => None
    case Null => None
    case Num(n) => Some(DecimalText(n))
    case Str(s) => Some(s)
  }

  /** `Number(v)` bound to an INTEGER column: `NaN` binds as NULL. */
  function IntegerOf(v: JsValue): (r: Option<int>)
    ensures r.None? <==> ToNumber(v).NaN?
    ensures r.Some? ==> ToNumber(v) == Int(r.value)
  {
    match ToNumber(v)
    case NaN => None
    case Int(i) => Some(i)
  }

  /** `name || "User"` as stored: a falsy name becomes "User". */
  function NameOrDefault(name: JsValue): (r: string)
    ensures !Truthy(name) ==> r == "User"
    ensures name.Str? && name.s != "" ==> r == name.s
    ensures name.Num? && name.n != 0 ==> r == DecimalText(name.n)
  {
    if Truthy(name) then TextOf(name).GetOr("User") else "User"
  }

  /** The email check passes: the body's `email` is a non-empty string. */
  predicate HasEmail(body: Body) {
    body.Object? && Field(body, "email").Str? && Field(body, "email").s != ""
  }

  function EmailOf(body: Body): string
    requires HasEmail(body)
  {
    Field(body, "email").s
  }

  /** The user row a first login with this body creates, given the id it receives. */
  function NewUser(body: Body, id: int): User
    requires HasEmail(body)
  {
    User(id, NameOrDefault(Field(body, "name")), EmailOf(body))
  }

  /** Once a user with a fresh email is appended, looking the email up finds that user
      first. */
  lemma FoundAfterInsert(db: Db, d: Db, row: User)
    requires !EmailTaken(db, row.email)
    requires d.users == db.users + [row]
    ensures |UsersWithEmail(d, row.email)| > 0 && UsersWithEmail(d, row.email)[0] == row
  {
    assert d.users[|d.users| - 1] == row;
    var again := UsersWithEmail(d, row.email);
    var k :| 0 <= k < |d.users| && d.users[k] == again[0];
  }

  /** `POST /api/login`: looks the email up and returns that user, creating it first (with
      name `name || "User"`) when no user has the email. The name is ignored for an email
      already present. A body that is not an object or has no non-empty string email is a
      400 and touches nothing. */
  function Login(db: Db, body: Body, failAt: Option<nat>): (o: Outcome)
    ensures o.response.status in {200, 400, 500}
    ensures o.response.status == 400 <==> !HasEmail(body)
    ensures o.response.status == 400 ==>
      o.db == db && o.response.payload == Error(if Rejected(body) then InvalidBody else "Email required")
    ensures o.response.status == 500 <==>
      HasEmail(body) && (failAt == Some(0) || (!EmailTaken(db, EmailOf(body)) && failAt in {Some(1), Some(2)}))
    ensures o.response.status == 500 ==> o.response.payload == Error("Login failed")
    ensures o.response.status == 200 ==>
      && o.response.payload.UserRow?
      && o.response.payload.user in o.db.users
      && o.response.payload.user.email == EmailOf(body)
    ensures HasEmail(body) && EmailTaken(db, EmailOf(body)) && failAt != Some(0) ==>
      o.response.status == 200 && o.db == db && o.response.payload.user in db.users
    ensures HasEmail(body) && !EmailTaken(db, EmailOf(body)) && failAt !in {Some(0), Some(1)} ==>
      && o.db == db.(users := db.users + [NewUser(body, db.lastUserId + 1)], lastUserId := db.lastUserId + 1)
      && (failAt != Some(2) ==> o.response == Response(200, UserRow(NewUser(body, db.lastUserId + 1))))
    ensures o.db == db || o.db == db.(users := o.db.users, lastUserId := o.db.lastUserId)
    ensures Valid(db) ==> Valid(o.db)
  {
    if Rejected(body) then Outcome(Response(400, Error(InvalidBody)), db)
    else if !HasEmail(body) then Outcome(Response(400, Error("Email required")), db)
    else
      var email := EmailOf(body);
      var failed := Response(500, Error("Login failed"));
      if failAt == Some(0) then Outcome(failed, db)
      else
        var rows := UsersWithEmail(db, email);
        if |rows| > 0 then Outcome(Response(200, UserRow(rows[0])), db)
        else if failAt == Some(1) then Outcome(failed, db)
        else
          match InsertUser(db, Some(NameOrDefault(Field(body, "name"))), Some(email))
          case Failure(_) => Outcome(failed, db)
          case Success(d) =>
            if failAt == Some(2) then Outcome(failed, d)
            else
              var again := UsersWithEmail(d, email);
              FoundAfterInsert(db, d, NewUser(body, d.lastUserId));
              Outcome(Response(200, UserRow(again[0])), d)
  }

  /** `GET /api/recipes`: every recipe row, unfiltered. */
  function ListRecipes(db: Db, failAt: Option<nat>): (o: Outcome)
    ensures o.db == db
    ensures o.response.status in {200, 500}
    ensures o.response.status == 200 <==> failAt != Some(0)
    ensures o.response.status == 200 ==> o.response.payload == RecipeRows(db.recipes)
    ensures o.response.status == 500 ==> o.response.payload == Error("Failed to load recipes")
  {
    if failAt == Some(0) then Outcome(Response(500, Error("Failed to load recipes")), db)
    else Outcome(Response(200, RecipeRows(db.recipes)), db)
  }

  /** The recipe check passes: title and ingredients are truthy and `createdBy` is neither
      `null` nor absent. A `createdBy` of 0 passes. */
  predicate HasRecipeFields(body: Body) {
    && body.Object?
    && Truthy(Field(body, "title"))
    && Truthy(Field(body, "ingredients"))
    && !Nullish(Field(body, "createdBy"))
  }

  /** `description ?? ""`. */
  function DescriptionOf(body: Body): (r: string)
    requires body.Object?
    ensures Nullish(Field(body, "description")) ==> r == ""
    ensures Field(body, "description").Str? ==> r == Field(body, "description").s
  {
    TextOf(Field(body, "description")).GetOr("")
  }

  /** The insert the recipe route makes: `description ?? ""`, `imageUrl ?? null` and
      `Number(createdBy)`. */
  function InsertRecipeFrom(db: Db, body: Body): Result<Db, SqlError>
    requires body.Object?
  {
    InsertRecipe(db, TextOf(Field(body, "title")), Some(DescriptionOf(body)), TextOf(Field(body, "imageUrl")),
                 TextOf(Field(body, "ingredients")), IntegerOf(Field(body, "createdBy")))
  }

  /** `POST /api/recipes`: validates, inserts one recipe, then returns the row with the
      highest id with status 201. Against a valid database that row is the one just
      inserted. A `createdBy` that `Number` turns into `NaN` is NULL and fails the insert;
      an owner that is not a user fails it when foreign keys are enforced. */
  function CreateRecipe(db: Db, body: Body, failAt: Option<nat>): (o: Outcome)
    ensures o.response.status in {201, 400, 500}
    ensures o.response.status == 400 <==> !HasRecipeFields(body)
    ensures o.response.status == 400 ==>
      o.db == db && o.response.payload == Error(if Rejected(body) then InvalidBody else "Missing fields")
    ensures o.response.status == 500 ==> o.response.payload == Error("Failed to create recipe")
    ensures o.response.status == 201 <==>
      && HasRecipeFields(body)
      && failAt !in {Some(0), Some(1)}
      && IntegerOf(Field(body, "createdBy")).Some?
      && (db.foreignKeys ==> IntegerOf(Field(body, "createdBy")).value in UserIds(db))
    ensures o.response.status == 201 ==>
      && o.db.lastRecipeId == db.lastRecipeId + 1
      && o.db == db.(recipes := o.db.recipes, lastRecipeId := o.db.lastRecipeId)
      && o.db.recipes == db.recipes + [Recipe(
           o.db.lastRecipeId,
           TextOf(Field(body, "title")).value,
           Some(DescriptionOf(body)),
           TextOf(Field(body, "imageUrl")),
           TextOf(Field(body, "ingredients")).value,
           IntegerOf(Field(body, "createdBy")).value)]
      && o.response.payload.RecipeRow?
      && o.response.payload.recipe in o.db.recipes
      && (forall x :: x in o.db.recipes ==> x.id <= o.response.payload.recipe.id)
    ensures Valid(db) && o.response.status == 201 ==>
      o.response.payload == RecipeRow(o.db.recipes[|o.db.recipes| - 1])
    ensures o.db == db || o.db == db.(recipes := o.db.recipes, lastRecipeId := o.db.lastRecipeId)
    ensures Valid(db) ==> Valid(o.db)
  {
    if Rejected(body) then Outcome(Response(400, Error(InvalidBody)), db)
    else if !HasRecipeFields(body) then Outcome(Response(400, Error("Missing fields")), db)
    else
      var failed := Response(500, Error("Failed to create recipe"));
      if failAt == Some(0) then Outcome(failed, db)
      else
        match InsertRecipeFrom(db, body)
        case Failure(_) => Outcome(failed, db)
        case Success(d) =>
          if failAt == Some(1) then Outcome(failed, d)
          else
            var latest := LatestRecipe(d);
            LatestIsInserted(db, TextOf(Field(body, "title")), Some(DescriptionOf(body)),
              TextOf(Field(body, "imageUrl")), TextOf(Field(body, "ingredients")),
              IntegerOf(Field(body, "createdBy")));
            Outcome(Response(201, RecipeRow(latest[0])), d)
  }

  /** `Number(url.searchParams.get("userId"))`: a missing parameter is `Number(null)`, 0. */
  function UserIdParam(userIdParam: Option<string>): JsNumber {
    match userIdParam
    case None => ToNumber(Null)
    case Some(s) => ToNumber(Str(s))
  }

  /** `GET /api/favorites?userId=…`: a 400 when the parameter is missing or reads as 0 or
      `NaN`; otherwise exactly that user's favourite rows, each once. */
  function ListFavorites(db: Db, userIdParam: Option<string>, failAt: Option<nat>): (o: Outcome)
    ensures o.db == db
    ensures o.response.status in {200, 400, 500}
    ensures o.response.status == 400 <==> !NumberTruthy(UserIdParam(userIdParam))
    ensures o.response.status == 400 ==> o.response.payload == Error("userId required")
    ensures userIdParam.None? ==> o.response.status == 400
    ensures o.response.status == 500 <==> NumberTruthy(UserIdParam(userIdParam)) && failAt == Some(0)
    ensures o.response.status == 500 ==> o.response.payload == Error("Failed to load favorites")
    ensures o.response.status == 200 ==>
      && failAt != Some(0)
      && o.response.payload.FavoriteRows?
      && var uid := UserIdParam(userIdParam).value;
         && (forall k :: 0 <= k < |o.response.payload.favorites| ==>
               o.response.payload.favorites[k] in db.favorites && o.response.payload.favorites[k].userId == uid)
         && (forall k :: 0 <= k < |db.favorites| && db.favorites[k].userId == uid ==>
               db.favorites[k] in o.response.payload.favorites)
         && (Valid(db) ==> Pairwise(o.response.payload.favorites, FavoriteIdsDiffer))
  {
    var n := UserIdParam(userIdParam);
    if !NumberTruthy(n) then Outcome(Response(400, Error("userId required")), db)
    else if failAt == Some(0) then Outcome(Response(500, Error("Failed to load favorites")), db)
    else Outcome(Response(200, FavoriteRows(FavoritesOfUser(db, n.value))), db)
  }

  /** The favourite check passes: `userId` and `recipeId` are both truthy, so 0, "" and a
      missing field are refused. */
  predicate HasPair(body: Body) {
    body.Object? && Truthy(Field(body, "userId")) && Truthy(Field(body, "recipeId"))
  }

  function UserIdOf(body: Body): Option<int>
    requires body.Object?
  {
    IntegerOf(Field(body, "userId"))
  }

  function RecipeIdOf(body: Body): Option<int>
    requires body.Object?
  {
    IntegerOf(Field(body, "recipeId"))
  }

  /** `POST /api/favorites`: validates, then inserts the pair and answers 201. A pair
      already present, an id that reads as `NaN` (NULL), or with foreign keys enforced an
      unknown user or recipe, fails the insert: a 500 with the database unchanged. */
  function AddFavorite(db: Db, body: Body, failAt: Option<nat>): (o: Outcome)
    ensures o.response.status in {201, 400, 500}
    ensures o.response.status == 400 <==> !HasPair(body)
    ensures o.response.status == 400 ==>
      o.response.payload == Error(if Rejected(body) then InvalidBody else "Missing userId or recipeId")
    ensures o.response.status != 201 ==> o.db == db
    ensures o.response.status == 500 ==> o.response.payload == Error("Failed to add favorite")
    ensures HasPair(body) && UserIdOf(body).Some? && RecipeIdOf(body).Some? &&
            PairTaken(db, UserIdOf(body).value, RecipeIdOf(body).value) ==>
      o.response.status == 500
    ensures o.response.status == 201 <==>
      && HasPair(body)
      && failAt != Some(0)
      && UserIdOf(body).Some? && RecipeIdOf(body).Some?
      && !PairTaken(db, UserIdOf(body).value, RecipeIdOf(body).value)
      && (db.foreignKeys ==> UserIdOf(body).value in UserIds(db) && RecipeIdOf(body).value in RecipeIds(db))
    ensures o.response.status == 201 ==>
      && o.response.payload == Ok
      && o.db == db.(favorites := db.favorites + [Favorite(db.lastFavoriteId + 1, UserIdOf(body).value, RecipeIdOf(body).value)],
                     lastFavoriteId := db.lastFavoriteId + 1)
    ensures Valid(db) ==> Valid(o.db)
  {
    if Rejected(body) then Outcome(Response(400, Error(InvalidBody)), db)
    else if !HasPair(body) then Outcome(Response(400, Error("Missing userId or recipeId")), db)
    else
      var failed := Response(500, Error("Failed to add favorite"));
      if failAt == Some(0) then Outcome(failed, db)
      else
        match InsertFavorite(db, UserIdOf(body), RecipeIdOf(body))
        case Failure(_) => Outcome(failed, db)
        case Success(d) => Outcome(Response(201, Ok), d)
  }

  /** `DELETE /api/favorites`: validates, then deletes every row carrying the pair and
      answers 200, also when no row matched. Every other row and every other table stays as
      it was; an id that reads as `NaN` binds as NULL and matches nothing. */
  function RemoveFavorite(db: Db, body: Body, failAt: Option<nat>): (o: Outcome)
    ensures o.response.status in {200, 400, 500}
    ensures o.response.status == 400 <==> !HasPair(body)
    ensures o.response.status == 400 ==>
      o.response.payload == Error(if Rejected(body) then InvalidBody else "Missing userId or recipeId")
    ensures o.response.status == 500 <==> HasPair(body) && failAt == Some(0)
    ensures o.response.status == 500 ==> o.response.payload == Error("deserve kunne ikke lagre til favouriter")
    ensures o.response.status != 200 ==> o.db == db
    ensures o.response.status == 200 ==>
      && o.response.payload == Ok
      && o.db == db.(favorites := o.db.favorites)
      && (forall k :: 0 <= k < |o.db.favorites| ==>
            o.db.favorites[k] in db.favorites && !MatchesPair(o.db.favorites[k], UserIdOf(body), RecipeIdOf(body)))
      && (forall k :: 0 <= k < |db.favorites| && !MatchesPair(db.favorites[k], UserIdOf(body), RecipeIdOf(body)) ==>
            db.favorites[k] in o.db.favorites)
    ensures Valid(db) ==> Valid(o.db)
  {
    if Rejected(body) then Outcome(Response(400, Error(InvalidBody)), db)
    else if !HasPair(body) then Outcome(Response(400, Error("Missing userId or recipeId")), db)
    else if failAt == Some(0) then Outcome(Response(500, Error("deserve kunne ikke lagre til favouriter")), db)
    else Outcome(Response(200, Ok), DeleteFavorites(db, UserIdOf(body), RecipeIdOf(body)))
  }

  /** The body a request carries, if it is one of the routes that read a body. */
  function BodyOf(req: Request): Option<Body> {
    match req
    case PostLogin(b) => Some(b)
    case PostRecipe(b) => Some(b)
    case PostFavorite(b) => Some(b)
    case DeleteFavorite(b) => Some(b)
    case _ => None
  }

  /** The router: one handler per method and path. Every route keeps the schema's
      invariants, the read-only routes never change the database, a 400 never changes it,
      and a body that is not an object is always refused the same way. */
  function Handle(db: Db, req: Request, failAt: Option<nat>): (o: Outcome)
    ensures Valid(db) ==> Valid(o.db)
    ensures o.response.status in {200, 201, 400, 500}
    ensures req.GetHealth? || req.GetRecipes? || req.GetFavorites? ==> o.db == db
    ensures o.response.status == 400 ==> o.db == db
    ensures BodyOf(req).Some? && Rejected(BodyOf(req).value) ==>
      o == Outcome(Response(400, Error(InvalidBody)), db)
  {
    match req
    case GetHealth => Outcome(Response(200, Ok), db)
    case PostLogin(b) => Login(db, b, failAt)
    case GetRecipes => ListRecipes(db, failAt)
    case PostRecipe(b) => CreateRecipe(db, b, failAt)
    case GetFavorites(p) => ListFavorites(db, p, failAt)
    case PostFavorite(b) => AddFavorite(db, b, failAt)
    case DeleteFavorite(b) => RemoveFavorite(db, b, failAt)
  }

  /** Logging in again with an email that just logged in returns the identical row and
      changes nothing, whatever name the second request carries. */
  lemma LoginTwice(db: Db, first: Body, second: Body, f1: Option<nat>, f2: Option<nat>)
    requires Valid(db)
    requires Login(db, first, f1).response.status == 200
    requires HasEmail(second) && EmailOf(second) == EmailOf(first)
    requires f2 != Some(0)
    ensures var o := Login(db, first, f1);
            Login(o.db, second, f2) == o
  {
    var o := Login(db, first, f1);
    var u := o.response.payload.user;
    EmailLookupUnique(o.db, u);
  }

  /** For an email already present, the login answers with that user whatever the name,
      and both answers carry the same row. */
  lemma LoginIgnoresName(db: Db, b1: Body, b2: Body, failAt: Option<nat>)
    requires Valid(db)
    requires HasEmail(b1) && HasEmail(b2) && EmailOf(b1) == EmailOf(b2)
    requires EmailTaken(db, EmailOf(b1))
    requires failAt != Some(0)
    ensures Login(db, b1, failAt) == Login(db, b2, failAt)
    ensures forall u :: u in db.users && u.email == EmailOf(b1) ==>
      Login(db, b1, failAt).response.payload == UserRow(u)
  {
    forall u | u in db.users && u.email == EmailOf(b1)
      ensures Login(db, b1, failAt).response.payload == UserRow(u)
    {
      EmailLookupUnique(db, u);
    }
  }

  /** The two checks read 0 differently: a recipe with `createdBy: 0` passes validation,
      while a favourite with `userId: 0` is refused by both favourite routes. */
  lemma ZeroIdentifiers(db: Db, recipe: Body, favorite: Body, failAt: Option<nat>)
    requires recipe.Object? && Field(recipe, "createdBy") == Num(0)
    requires Truthy(Field(recipe, "title")) && Truthy(Field(recipe, "ingredients"))
    requires favorite.Object? && Field(favorite, "userId") == Num(0)
    ensures CreateRecipe(db, recipe, failAt).response.status != 400
    ensures AddFavorite(db, favorite, failAt).response.status == 400
    ensures RemoveFavorite(db, favorite, failAt).response.status == 400
  {
  }

  /** With foreign keys enforced, the `createdBy: 0` that passes validation still fails:
      no user has id 0, so the insert is refused and the route answers 500. */
  lemma CreatedByZeroFails(db: Db, body: Body, failAt: Option<nat>)
    requires Valid(db) && db.foreignKeys
    requires HasRecipeFields(body) && Field(body, "createdBy") == Num(0)
    ensures CreateRecipe(db, body, failAt).response.status == 500
    ensures CreateRecipe(db, body, failAt).db == db
  {
    assert 0 !in UserIds(db);
  }

  /** Adding the same favourite twice: the second insert hits the unique pair and the
      route answers 500 without touching the table. */
  lemma AddTwice(db: Db, body: Body, f1: Option<nat>, f2: Option<nat>)
    requires AddFavorite(db, body, f1).response.status == 201
    ensures var d := AddFavorite(db, body, f1).db;
            AddFavorite(d, body, f2) == Outcome(Response(500, Error("Failed to add favorite")), d)
  {
    var d := AddFavorite(db, body, f1).db;
    var k := |d.favorites| - 1;
    assert d.favorites[k].userId == UserIdOf(body).value && d.favorites[k].recipeId == RecipeIdOf(body).value;
  }

  /** Deleting the favourite just added restores the favourites table to what it was. */
  lemma RemoveUndoesAdd(db: Db, body: Body, f1: Option<nat>, f2: Option<nat>)
    requires AddFavorite(db, body, f1).response.status == 201
    requires f2 != Some(0)
    ensures RemoveFavorite(AddFavorite(db, body, f1).db, body, f2).db.favorites == db.favorites
  {
    var d := AddFavorite(db, body, f1).db;
    var row := d.favorites[|d.favorites| - 1];
    var keep := (f: Favorite) => !MatchesPair(f, UserIdOf(body), RecipeIdOf(body));
    assert d.favorites == db.favorites + [row];
    FilterConcat(db.favorites, [row], keep);
    forall k | 0 <= k < |db.favorites| ensures keep(db.favorites[k]) {
    }
    FilterKeepsAll(db.favorites, keep);
    assert Filter([row], keep) == [];
  }

  /** A user id rendered as decimal text reads back as that id: the favourites GET with
      `userId=<n>` for a non-zero `n` lists exactly the rows of user `n`. */
  lemma ListFavoritesById(db: Db, id: int, failAt: Option<nat>)
    requires id != 0 && failAt != Some(0)
    ensures ListFavorites(db, Some(DecimalText(id)), failAt) ==
            Outcome(Response(200, FavoriteRows(FavoritesOfUser(db, id))), db)
  {
    DecimalTextNumber(id);
  }
}
